=== FILE: README.md ===
# Squad-Counter: group repository and aggregation, in Dafny

Squad-Counter is a group tally app. Users make small groups that others join
with a short invite code. Each group has named counters (say "Beers Drunk").
Each tap on a counter adds one log entry for the user who tapped. The app then
shows per-counter totals, a ranked leaderboard per counter, and a text tally
that it hands to a commentary generator.

This project models the part of the app with real rules:

- **The group repository** of `Services/storage.ts`: create, join, leave, add
  counter, add log, look up by id, create profile and save profile. These act
  on one snapshot of the persisted state:
  - the code-keyed map of groups;
  - the local profile;
  - the local membership index, which lists the ids of the groups this user
    belongs to.
- **The leaderboard** that `components/StatsCharts.tsx` computes for one
  counter.
- **The rules in `App.tsx`** around the repository:
  - syncing the index into loaded groups;
  - reconciling the active group;
  - the next active group after leaving;
  - the per-counter total;
  - the guards before counter creation and increments.
- **The tally text** of `Services/giminiService.ts`.

Files, one module each:

| file | module | models |
|---|---|---|
| `wrappers.dfy` | `Wrappers` | `Option` (a TypeScript `T \| null`) and `Result` (a value, or the error an operation throws) |
| `types.dfy` | `Types` | the records of `types.ts` and the profile snapshot a group stores |
| `text.dfy` | `Text` | ASCII `toUpperCase`, decimal rendering of a count, `join` and one-character `split` |
| `storage.dfy` | `Storage` | the store and every repository operation |
| `storage_proofs.dfy` | `StorageProofs` | invariants the operations keep, idempotence, relations between operations |
| `leaderboard.dfy` | `Leaderboard` | per-user counts, the stable descending sort, the "no data" outcome |
| `app.dfy` | `App` | sync, reconciliation, totals, guards |
| `tally.dfy` | `Tally` | the per-counter tally text |

How the model represents the store:

- **The store** is an immutable record. It holds the group map, the insertion
  order of the map's keys, the profile, and the membership index.
  - JavaScript keeps object keys in insertion order. `getGroupById`,
    `leaveGroup` and `saveUserProfile` all search that order and take the
    first group with a matching id.
  - Modelling the order makes those searches deterministic.
  - `KeysAgree` says the key order lists each stored code exactly once.
- **Operations are functions.** One that can fail returns
  `Result<…, StoreError>`. A failure carries no store, so the caller keeps the
  store it had, unchanged.
- **Random and clock values are parameters.** These are the group id and
  invite code, the profile id, the palette index and the two `Date.now()`
  readings of `createGroup`.

Behaviours of the code worth knowing:

- `joinGroup` checks "already a member" against the membership index, not
  against the group's users.
  - It checks the 5-group cap second, right after the profile check.
  - Unique user ids per group therefore hold only while the index covers every
    group the profile is in (`IndexCovers`). `JoinDuplicatesWhenIndexIsStale`
    shows the duplicate that gets in otherwise.
- `leaveGroup` uses `filter`. It removes every matching user record and every
  matching index entry. When ids are distinct, that is at most one user record
  (`LeaveRemovesAtMostOneRecord`).
- `createGroup` overwrites a group already stored under the same code.
- `leaveGroup` and `saveUserProfile` find the group's key and then test it
  for truth, so they skip a group stored under the empty code.
  - `generateCode` yields the empty code when `Math.random()` returns 0.
  - The index still drops the id, so the profile keeps a record in a group it
    has left (`LeaveSkipsEmptyCode`).
  - The invariant `Healthy` therefore includes "no group under the empty
    code".
- `addCounter` and `addLog` look up the code exactly. `joinGroup` upper-cases
  it first.

## Model

| member | source | states |
|---|---|---|
| Text.Upper | Services/storage.ts:127 | upper-casing keeps the length, leaves no lower-case ASCII letter, and changes nothing but lower-case letters |
| Text.UpperIdempotent | Services/storage.ts:127 | upper-casing twice gives the same text as upper-casing once |
| Text.UpperOfUpperCase | Services/storage.ts:8 | text with no lower-case ASCII letter, such as a generated code, is its own upper-case form |
| Text.NatToString | Services/giminiService.ts:16 | a count is rendered as at least one decimal digit, with no leading zero |
| Text.ParseNatToString | Services/giminiService.ts:16 | reading back the rendered digits gives the count, so the text pins the number down |
| Text.SplitJoin | Services/giminiService.ts:17-19 | when no part contains the separator, splitting the joined text on it gives back the parts |
| Text.Join | Services/giminiService.ts:19 | every character of a join comes from the separator or from one of the parts |
| Text.JoinFree | Services/giminiService.ts:17-19 | a join contains a character only if a part or the separator does |
| Storage.EmptyStore | Services/storage.ts:17-20 | a store nothing was written to has no groups, no profile and an empty index |
| Storage.PutGroup | Services/storage.ts:111 | storing under a code replaces that key's group and keeps its key position; a new key goes last; key-order agreement is kept |
| Storage.FindKeyById | Services/storage.ts:43 | the key found holds a group with that id, and no earlier key does; nothing is found exactly when no listed key holds that id |
| Storage.GetGroupById | Services/storage.ts:174-179 | the group returned is a stored group with the requested id; null exactly when no stored group has that id |
| Storage.CreateProfile | Services/storage.ts:74-83 | the new profile has the given id, name and avatar and a palette colour, and is saved like any profile edit |
| Storage.CreateGroup | Services/storage.ts:85-117 | fails without a profile, then fails when the index already holds 5 ids; on success the group has exactly the creator's record, no counters and no logs, sits under its code (replacing any old group there, or as the last key when the code is new), and its id is appended to the index |
| Storage.JoinGroup | Services/storage.ts:119-146 | fails in order: no profile, 5 groups, no group under the upper-cased code, id already in the index, 10 users; it succeeds exactly when none of these checks fails; on success exactly one record is appended to that group, its id is appended to the index, and no other group changes |
| Storage.RemoveUsers | Services/storage.ts:158 | no record with the id is left; every record with another id stays |
| Storage.RemoveUsersAppend | Services/storage.ts:158 | the filter keeps order: filtering joined lists gives the filtered parts, joined in the same order |
| Storage.RemoveUsersSingleton | Services/storage.ts:158 | a single record is kept exactly when its id differs from the one removed |
| Storage.RemoveAll | Services/storage.ts:170 | the id is gone from the index, and every other id keeps its number of occurrences |
| Storage.RemoveAllAppend | Services/storage.ts:170 | the index filter keeps order: filtering joined lists gives the filtered parts, joined in the same order |
| Storage.RemoveAllSingleton | Services/storage.ts:170 | a single index entry is kept exactly when it differs from the id removed |
| Storage.LeaveGroup | Services/storage.ts:148-172 | the index becomes its order-keeping filter without the id, whether or not the group exists; with a profile, the first group with that id loses every record of the profile and keeps every other record, in order, unless it is stored under the empty code, which leaves every group as it was; no group is deleted, and only users change |
| Storage.AddCounter | Services/storage.ts:181-189 | an unknown exact code is a no-op; ten counters fail; otherwise the counter is appended and nothing else changes |
| Storage.AddLog | Services/storage.ts:191-198 | an unknown exact code is a no-op; otherwise the entry is appended without checking its counter or user, and nothing else changes |
| Storage.FirstUserIndex | Services/storage.ts:45 | the index found is the first record with the id; nothing is found exactly when no record has it |
| Storage.SyncUser | Services/storage.ts:45-51 | only the first record with the profile's id changes, to the profile's name, avatar and colour; every id and join time stays; a group without that id is unchanged |
| Storage.FindKeyByIdSameIds | Services/storage.ts:43 | a search by id depends only on the keys and the groups' ids, so changes to users or logs never move it |
| Storage.SyncUserIdempotent | Services/storage.ts:45-51 | syncing a profile twice into a group equals syncing it once |
| Storage.ResolvedBySnoc | Services/storage.ts:41-44 | one more index entry resolves one more group: the first group carrying that id |
| Storage.Propagate | Services/storage.ts:41-53 | the loop over the index keeps every key, every group's id and every group's number of users |
| Storage.SyncAt | Services/storage.ts:43-51 | one step of the loop changes at most the group under the key found, and not when that key is the empty, falsy one; keys stay |
| Storage.PropagateSpecSnoc | Services/storage.ts:41-53 | the group-by-group result, extended by one index entry, syncs just the group that entry resolves to, unless it sits under the empty code |
| Storage.PropagateMatchesSpec | Services/storage.ts:41-53 | the in-order loop over the index equals syncing, once, every group some index entry resolves to and not stored under the empty code, with every other group untouched |
| Storage.SaveUserProfile | Services/storage.ts:34-60 | the profile is stored; every group an index entry resolves to, except one under the empty code, has the profile synced into it; stale entries are skipped; keys, index and every user's id and join time stay |
| StorageProofs.EmptyStoreHealthy | Services/storage.ts:17-20 | the empty store satisfies the whole invariant |
| StorageProofs.CreateKeepsCaps | Services/storage.ts:105 | creating a group keeps every group at ≤10 users and ≤10 counters |
| StorageProofs.JoinKeepsCaps | Services/storage.ts:134 | joining keeps every group at ≤10 users and ≤10 counters |
| StorageProofs.AddCounterKeepsCaps | Services/storage.ts:185 | adding a counter keeps every group at ≤10 users and ≤10 counters |
| StorageProofs.JoinKeepsMembersUnique | Services/storage.ts:132 | if the index covers the profile's groups, a join keeps each group's user ids distinct |
| StorageProofs.JoinDuplicatesWhenIndexIsStale | Services/storage.ts:132 | when the profile is in a group whose id is not in the index, a join succeeds and leaves two records with one id |
| StorageProofs.CreateKeepsHealthy | Services/storage.ts:85-117 | with a fresh group id and a non-empty code, creating keeps key agreement, the caps, distinct members, index coverage, distinct group ids and no group under the empty code |
| StorageProofs.JoinKeepsHealthy | Services/storage.ts:119-146 | joining keeps key agreement, the caps, distinct members, index coverage, distinct group ids and no group under the empty code |
| StorageProofs.LeaveKeepsHealthy | Services/storage.ts:148-172 | leaving keeps key agreement, the caps, distinct members, index coverage, distinct group ids and no group under the empty code |
| StorageProofs.LeaveKeepsMembersUnique | Services/storage.ts:158 | leaving keeps every group's user ids distinct |
| StorageProofs.LeaveKeepsIndexCover | Services/storage.ts:148-172 | with distinct group ids and no group under the empty code, the index still covers every group the profile stays in after leaving |
| StorageProofs.LeaveSkipsEmptyCode | Services/storage.ts:155-157 | a group stored under the empty code keeps the leaving profile's record, while the index drops its id, so the index no longer covers it |
| StorageProofs.AddCounterKeepsHealthy | Services/storage.ts:181-189 | adding a counter keeps the whole invariant |
| StorageProofs.AddLogKeepsHealthy | Services/storage.ts:191-198 | adding a log keeps the whole invariant |
| StorageProofs.SyncUserKeepsIds | Services/storage.ts:45-51 | syncing keeps the group's id, keeps its user ids distinct, and keeps whether the profile is a member |
| StorageProofs.SaveProfileKeepsHealthy | Services/storage.ts:34-60 | a profile edit that keeps the profile id keeps the whole invariant |
| StorageProofs.SaveProfileKeepsGroupShape | Services/storage.ts:45-51 | a save keeps each group's id, counters and number of users, keeps distinct ids distinct, and keeps whether the profile is a member |
| StorageProofs.CreateProfileKeepsHealthy | Services/storage.ts:74-83 | a new profile whose id no group holds keeps the whole invariant |
| StorageProofs.HasUserCons | Services/storage.ts:158 | a user is in a non-empty list when it is the head or is in the tail |
| StorageProofs.RemoveUsersKeepsDistinct | Services/storage.ts:158 | with distinct ids, the filter keeps ids distinct and removes exactly one record when the id is present, none otherwise |
| StorageProofs.LeaveRemovesAtMostOneRecord | Services/storage.ts:152-162 | leaving takes at most one record out of a group whose ids are distinct |
| StorageProofs.LeaveIdempotent | Services/storage.ts:148-172 | leaving the same group twice equals leaving it once |
| StorageProofs.JoinTwiceRefused | Services/storage.ts:124-132 | right after a successful join, joining with the same code fails: too many groups at 5, otherwise already a member |
| StorageProofs.CreateThenGetById | Services/storage.ts:174-179 | with a fresh id, looking a just-created group up by that id returns it |
| StorageProofs.GeneratedCodeJoinable | Services/storage.ts:127-130 | a generated code is its own upper-case form, so any casing of it typed into join finds its group and never reports "not found" |
| StorageProofs.JoinIgnoresCase | Services/storage.ts:127 | two codes with the same upper-case form give the same join outcome |
| StorageProofs.AddLogIsCaseSensitive | Services/storage.ts:193 | an entry sent under the lower-cased code of a stored group is dropped; under the exact code it is appended |
| StorageProofs.SaveProfileIdempotent | Services/storage.ts:34-60 | saving the same profile twice equals saving it once |
| StorageProofs.SaveProfileGroupsIdempotent | Services/storage.ts:34-60 | the group map after two saves of one profile is the group map after one |
| StorageProofs.SaveProfileIdempotentAt | Services/storage.ts:41-53 | a second save of the same profile changes no group |
| StorageProofs.ResolvedBySameIds | Services/storage.ts:43 | which keys an index resolves depends only on the keys and the groups' ids |
| StorageProofs.RenamePropagates | Services/storage.ts:41-53 | after a save, each record with the profile's id, in a group the index resolves to, not stored under the empty code and whose ids are distinct, shows the new name, avatar and colour |
| StorageProofs.SaveProfileSkipsUnresolved | Services/storage.ts:41-44 | a group no index entry resolves to is left unchanged by a save |
| Leaderboard.LogCount | components/StatsCharts.tsx:26 | a count never exceeds the number of logs, and is zero exactly when no entry matches both the counter and the user |
| Leaderboard.LogCountAppend | components/StatsCharts.tsx:26 | one more log adds one to exactly the (counter, user) count it matches |
| Leaderboard.WithCountMembers | components/StatsCharts.tsx:32 | the entries picked out for a count are entries of the list that have that count |
| Leaderboard.InsertMultiset | components/StatsCharts.tsx:32 | inserting adds exactly the new entry |
| Leaderboard.InsertSorted | components/StatsCharts.tsx:32 | inserting into a non-increasing list keeps it non-increasing |
| Leaderboard.InsertWithCount | components/StatsCharts.tsx:32 | inserting places the entry ahead of the entries with an equal count and keeps their order |
| Leaderboard.WithCountCons | components/StatsCharts.tsx:32 | a new head joins its own count's entries and no other's |
| Leaderboard.InsertBelowHead | components/StatsCharts.tsx:32 | inserting below the head keeps the head ahead of the entries with its count |
| Leaderboard.SortDesc | components/StatsCharts.tsx:32 | the sorted list is a permutation of its input and is non-increasing by count |
| Leaderboard.SortDescWithCount | components/StatsCharts.tsx:32 | for each count, the sorted list holds the same entries with that count, in input order |
| Leaderboard.SortDescIsStable | components/StatsCharts.tsx:32 | the sort is a stable descending sort of its input |
| Leaderboard.WithCountTail | components/StatsCharts.tsx:32 | dropping the head removes it only from its own count's entries |
| Leaderboard.WithCountHead | components/StatsCharts.tsx:32 | a non-empty list has at least one entry with its head's count |
| Leaderboard.StableSortUnique | components/StatsCharts.tsx:32 | any two stable descending sorts of one input are equal, so every stable sort with this comparator computes the model's result |
| Leaderboard.AllZeroPermutation | components/StatsCharts.tsx:34 | a rearranged list is all-zero exactly when the original is |
| Leaderboard.NonZeroHead | components/StatsCharts.tsx:32-34 | a sorted list with any non-zero count starts with a non-zero count |
| Leaderboard.ComputeLeaderboard | components/StatsCharts.tsx:24-36 | "no data" exactly when every user's count is zero (so also with no users); otherwise the bars are the stable descending sort of the per-user rows, one per user, led by a non-zero count |
| Leaderboard.CountIgnoresUnrelated | components/StatsCharts.tsx:26 | logs that do not match the (counter, user) pair never change that pair's count |
| Leaderboard.IgnoresUnrelatedLogs | components/StatsCharts.tsx:26 | logs of other counters, or by ids that are not members, never change the leaderboard |
| Leaderboard.TwoUserExample | components/StatsCharts.tsx:25-32 | users A, B with logs A, A, B give bars A:2 then B:1 |
| Leaderboard.ReorderExample | components/StatsCharts.tsx:25-32 | founder F with 1 tap, listed before U with 3, gives bars U:3 then F:1 |
| App.GroupIds | App.tsx:129 | the ids of a list of groups, in order |
| App.LoadGroups | App.tsx:40-50 | every loaded group came from an index id, and looking it up by that id returns it |
| App.LoadedIdsAreResolvable | App.tsx:40-50 | the loaded groups' ids are exactly the index ids that resolve, in index order; ids that do not resolve are dropped |
| App.NothingLoads | App.tsx:40-62 | nothing loads exactly when no index id resolves |
| App.LoadGroupsAppend | App.tsx:44-50 | loading two index segments one after the other equals loading them joined |
| App.Reconcile | App.tsx:54-63 | a still-loaded, non-empty active id is kept; otherwise the first loaded group becomes active; with nothing loaded there is no active group; any active id names a loaded group |
| App.Sync | App.tsx:36-63 | the view holds the stored profile and the loaded groups; its active id is the one the auto-select rule picks (the previous id if still loaded and non-empty, else the first loaded group), it names a loaded group, and it is null exactly when no index id resolves |
| App.Remaining | App.tsx:129 | the remaining groups are exactly the ones whose id differs from the left one |
| App.RemainingAppend | App.tsx:129 | the view's filter keeps order: filtering joined lists gives the filtered parts, joined in the same order |
| App.RemainingSingleton | App.tsx:129 | a single group is kept exactly when its id differs from the left one |
| App.RemainingIds | App.tsx:129 | the remaining groups' ids are the loaded ids with the left id removed, in the same order, just as the index filter removes it |
| App.NextActiveAfterLeave | App.tsx:129-130 | the next active id is a remaining group other than the left one, and is null exactly when no other group is loaded |
| App.NextActiveIsReconcile | App.tsx:129-130 | the choice made right after leaving is the choice the next sync makes |
| App.LeaveKeepsResolution | Services/storage.ts:148-172 | after a leave, the same ids resolve as before |
| App.LoadAfterLeaveIds | App.tsx:40-50 | after a leave, loading the trimmed index gives the same group ids, in order, as dropping the left id from the groups loaded before |
| App.SyncAfterLeave | App.tsx:36-63 | the sync after a leave loads the same ids, in order, that the immediate update kept; the left id does not come back |
| App.CounterTotal | App.tsx:270 | a counter's total never exceeds the number of logs, and is zero exactly when no log names the counter |
| App.CounterTotalAppend | App.tsx:270 | one more log adds one to the total of exactly its own counter |
| App.AddLogRaisesTotal | App.tsx:270 | an added log raises its own counter's displayed total by one and leaves every other total alone |
| App.OccurrencesOfDistinct | components/StatsCharts.tsx:26 | with distinct ids, an id occurs once if it is a member and not at all otherwise |
| App.SumCountsAppend | components/StatsCharts.tsx:26 | one more log of the counter adds, to the sum of per-user counts, the number of members with its user id |
| App.SumCountsIsTotal | App.tsx:270 | when ids are distinct and every log of the counter names a member, the per-user counts add up to the total |
| App.SumCountsZero | components/StatsCharts.tsx:26 | with no logs, every count is zero |
| App.SumEntriesInsert | components/StatsCharts.tsx:32 | inserting a bar adds its count to the sum |
| App.SumEntriesSort | components/StatsCharts.tsx:32 | sorting keeps the sum of the counts |
| App.SumEntriesRows | components/StatsCharts.tsx:25-31 | the rows' counts add up to the per-user sum |
| App.ChartAddsUpToTotal | App.tsx:303-311 | when ids are distinct and every log names a member, the bars add up to the total shown beside the chart, and "no data" comes with a zero total |
| App.SumCountsZeroWhenAllZero | components/StatsCharts.tsx:34 | all-zero counts sum to zero |
| App.CreateCounterRequest | App.tsx:93-111 | the form is ignored exactly when the title is empty or there is no active group or profile; the limit alert comes exactly at 10 or more displayed counters; otherwise the group's code receives a counter with the form's title, emoji and colour, created by the profile |
| App.SubmittedCounterIsStored | App.tsx:95-111 | a counter the guard lets through, for a group displayed as stored, is appended by the repository without error |
| App.IncrementRequest | App.tsx:79-89 | with no profile or no active group nothing is logged; otherwise the active group's code receives an entry for that counter, by the profile |
| App.IncrementCountsOnce | App.tsx:79-89 | a tap raises the tapping user's count for that counter by one and leaves every other user's count alone |
| Tally.LogsOfCounter | Services/giminiService.ts:13 | the entries kept all name the counter and come from the logs |
| Tally.CountByUser | Services/giminiService.ts:15 | a user's count never exceeds the number of the counter's entries |
| Tally.TwoStageCount | Services/giminiService.ts:13-15 | filtering by counter and then counting by user gives exactly the leaderboard's count for that user |
| Tally.Summary | Services/giminiService.ts:12-19 | with no counters the tally is empty; with one counter it is that counter's line |
| Tally.PairStatesCount | Services/giminiService.ts:15-16 | each pair is the user's name, ": ", and digits that read back as the number of logs matching that counter and that user |
| Tally.Pair | Services/giminiService.ts:16 | a pair is the user's name, ": ", then decimal digits that read back as the user's count among the counter's entries |
| Tally.Line | Services/giminiService.ts:18 | a line contains a line break only if the counter's title or emoji, or some user's name, does |
| Tally.LineStatesCounts | Services/giminiService.ts:14-18 | a line reads `Counter "<title>" (<emoji>): [` then one pair per user, in user order, joined by ", ", then `]`; each pair is the user's name, ": " and digits that read back as exactly the number of logs for that counter and that user |
| Tally.PairsBreaks | Services/giminiService.ts:16 | a line break in a pair comes from the user's name, since the count is all digits |
| Tally.NoUsersLine | Services/giminiService.ts:18 | with no users a line reads `Counter "<title>" (<emoji>): []` |
| Tally.LineHasNoBreak | Services/giminiService.ts:14-18 | a line has no line break when the title, emoji and names have none |
| Tally.SummarySplitsIntoLines | Services/giminiService.ts:12-19 | with at least one counter, and no line break in any title, emoji or name, splitting the tally on newlines gives exactly one line per counter, in counter order |

## Left out

- Browser storage: reads and writes to `localStorage`, JSON parsing and
  serialising, and the `storage` event (Services/storage.ts:17-25, 29-32,
  62-70). The store is a value passed in and returned instead.
  - The `try`/`catch` in `leaveGroup` (Services/storage.ts:153-165) catches
    failures of reading, parsing or writing browser storage. With such a
    failure the group-side update is lost while the index update still
    happens. The model has no failing storage, so this path is not modelled.
  - A store that fails to parse is not modelled.
- Polling and listeners: the 2-second timer, the listener lifecycle
  (App.tsx:66-73) and lost updates between browser tabs. Each operation is
  atomic over one snapshot.
- Randomness and clocks (`generateCode`, `crypto.randomUUID`,
  `getRandomColor`, `Date.now()`) are parameters.
  - `CreateGroup` requires a code of the shape `generateCode` produces.
  - `CreateProfile` takes a palette index.
  - Freshness of ids is a premise of the invariant lemmas, not a guarantee.
- Integer-like keys: JavaScript lists keys such as `"123456"` before all other
  keys, whatever their insertion order. The model keeps plain insertion order
  for every key. Codes that clash with inherited object properties
  (`constructor` and the like) are not modelled either.
- Text.Upper: covers ASCII letters only. JavaScript's full Unicode case
  mapping (for example `ß` becoming `SS`) is not modelled.
- Text.NatToString: exponent notation, which JavaScript uses for counts of
  10^21 and above, is not modelled.
- Storage.SaveUserProfile: the `changed` flag only decides whether the groups
  are written back. Either way the stored groups equal the returned ones, so
  the flag is not modelled.
- Storage.GetGroupById: its contract does not say which group is returned when
  several share an id. `Storage.FindKeyById` states the first-in-key-order
  rule.
- StorageProofs.CreateKeepsHealthy: assumes a non-empty code.
  - A group created under the empty code can never be left or synced.
  - `LeaveSkipsEmptyCode` shows the resulting state.
- The call to the language model: the request, the prompt text and the
  fallback strings (Services/giminiService.ts:4, 21-45). It is a network call.
- UI components are rendering and form handling: Onboarding, ProfileSettings,
  Sidebar, CounterCard, AIAnalyst, the JSX of `App.tsx` and `StatsCharts.tsx`,
  and the recharts chart. So are the leave-confirmation dialog, the
  `activeGroup` lookup (App.tsx:76-77) and the refresh trigger. The guards take
  the active group as a parameter.
- `Services/mockData.ts` generates random sample data and is not used by the
  app's rules modelled here.

=== FILE: app.dfy ===
/** The rules App.tsx applies around the repository: the sync that resolves
    the membership index to groups and reconciles the active group, the
    next active group after leaving, the per-counter total, and the guards in
    front of counter creation and increments. */
module App {
  import opened Wrappers
  import opened Types
  import opened Storage
  import Leaderboard

  /** The ids of a sequence of groups, in order. */
  function GroupIds(gs: seq<Group>): (ids: seq<string>)
    ensures |ids| == |gs|
    ensures forall i :: 0 <= i < |gs| ==> ids[i] == gs[i].id
  {
    if gs == [] then [] else [gs[0].id] + GroupIds(gs[1..])
  }

  /** Resolves each index id with `getGroupById`, in index order, dropping the
      ids that resolve to nothing. */
  function LoadGroups(s: Store, ids: seq<string>): (r: seq<Group>)
    requires KeysAgree(s)
    ensures |r| <= |ids|
    ensures forall i :: 0 <= i < |r| ==> r[i].id in ids && GetGroupById(s, r[i].id) == Some(r[i])
  {
    if ids == [] then []
    else
      var rest := LoadGroups(s, ids[1..]);
      match GetGroupById(s, ids[0])
      case None => rest
      case Some(g) => [g] + rest
  }

  /** The index ids that resolve to a stored group, in index order. */
  function ResolvableIds(s: Store, ids: seq<string>): seq<string>
    requires KeysAgree(s)
  {
    if ids == [] then []
    else (if GetGroupById(s, ids[0]).Some? then [ids[0]] else []) + ResolvableIds(s, ids[1..])
  }

  /** The loaded groups are exactly the resolvable ids' groups: their ids are
      the resolvable index ids, in index order, and an id that does not
      resolve is dropped. */
  lemma {:induction false} LoadedIdsAreResolvable(s: Store, ids: seq<string>)
    requires KeysAgree(s)
    ensures GroupIds(LoadGroups(s, ids)) == ResolvableIds(s, ids)
  {
    if ids != [] {
      LoadedIdsAreResolvable(s, ids[1..]);
      var r := LoadGroups(s, ids);
      if GetGroupById(s, ids[0]).Some? {
        assert r == [GetGroupById(s, ids[0]).value] + LoadGroups(s, ids[1..]);
        assert GroupIds(r)[1..] == GroupIds(LoadGroups(s, ids[1..]));
      }
    }
  }

  /** Nothing loads exactly when no index id resolves. */
  lemma {:induction false} NothingLoads(s: Store, ids: seq<string>)
    requires KeysAgree(s)
    ensures |LoadGroups(s, ids)| == 0 <==> forall i :: 0 <= i < |ids| ==> GetGroupById(s, ids[i]).None?
  {
    if ids != [] {
      NothingLoads(s, ids[1..]);
      if GetGroupById(s, ids[0]).None? {
        assert forall i :: 1 <= i < |ids| ==> ids[i] == ids[1..][i - 1];
      }
    }
  }

  /** Loading a concatenation loads each part in turn. */
  lemma {:induction false} LoadGroupsAppend(s: Store, a: seq<string>, b: seq<string>)
    requires KeysAgree(s)
    ensures LoadGroups(s, a + b) == LoadGroups(s, a) + LoadGroups(s, b)
  {
    if a != [] {
      assert (a + b)[1..] == a[1..] + b;
      LoadGroupsAppend(s, a[1..], b);
    } else {
      assert a + b == b;
    }
  }

  /** The previous active id is truthy and still among the loaded groups. */
  predicate StillActive(active: Option<string>, loaded: seq<Group>)
  {
    active.Some? && active.value != "" && exists i :: 0 <= i < |loaded| && loaded[i].id == active.value
  }

  /** The auto-select rule: keep a still-loaded active id, else take the first
      loaded group, else nothing. An empty-string id is falsy and counts as
      no active group. */
  function Reconcile(active: Option<string>, loaded: seq<Group>): (r: Option<string>)
    ensures |loaded| == 0 ==> r.None?
    ensures StillActive(active, loaded) ==> r == active
    ensures |loaded| > 0 && !StillActive(active, loaded) ==> r == Some(loaded[0].id)
    ensures r.Some? ==> exists i :: 0 <= i < |loaded| && loaded[i].id == r.value
  {
    if |loaded| > 0 then
      if active.None? || active.value == "" || !StillActive(active, loaded) then Some(loaded[0].id)
      else active
    else None
  }

  /** What one sync shows: the profile, the loaded groups and the active id. */
  datatype View = View(profile: Option<UserProfile>, groups: seq<Group>, active: Option<string>)

  /** `syncData`: re-reads the store and reconciles the active group. */
  function Sync(s: Store, active: Option<string>): (v: View)
    requires KeysAgree(s)
    ensures v.profile == s.profile
    ensures v.groups == LoadGroups(s, s.myGroupIds)
    ensures v.active == Reconcile(active, v.groups)
    ensures v.active.Some? ==> exists i :: 0 <= i < |v.groups| && v.groups[i].id == v.active.value
    ensures v.active.None? <==> forall i :: 0 <= i < |s.myGroupIds| ==> GetGroupById(s, s.myGroupIds[i]).None?
  {
    var loaded := LoadGroups(s, s.myGroupIds);
    NothingLoads(s, s.myGroupIds);
    View(s.profile, loaded, Reconcile(active, loaded))
  }

  /** `myGroups.filter(g => g.id !== groupId)`. */
  function Remaining(groups: seq<Group>, groupId: string): (r: seq<Group>)
    ensures forall i :: 0 <= i < |r| ==> r[i].id != groupId && r[i] in groups
    ensures forall g :: g in groups && g.id != groupId ==> g in r
  {
    if groups == [] then []
    else
      var rest := Remaining(groups[1..], groupId);
      if groups[0].id == groupId then rest else [groups[0]] + rest
  }

  /** The view's filter keeps order: filtering a concatenation filters each part in turn. */
  lemma {:induction false} RemainingAppend(a: seq<Group>, b: seq<Group>, groupId: string)
    ensures Remaining(a + b, groupId) == Remaining(a, groupId) + Remaining(b, groupId)
  {
    if a != [] {
      var ab := a + b;
      assert ab[0] == a[0] && ab[1..] == a[1..] + b;
      RemainingAppend(a[1..], b, groupId);
      if a[0].id == groupId {
        assert Remaining(ab, groupId) == Remaining(a[1..] + b, groupId);
      } else {
        assert Remaining(ab, groupId) == [a[0]] + Remaining(a[1..] + b, groupId);
        assert Remaining(a, groupId) == [a[0]] + Remaining(a[1..], groupId);
      }
    } else {
      assert a + b == b;
    }
  }

  /** On one group the filter keeps it exactly when its id differs. */
  lemma RemainingSingleton(g: Group, groupId: string)
    ensures Remaining([g], groupId) == if g.id == groupId then [] else [g]
  {
  }

  /** The view's filter and the index filter agree: the remaining groups'
      ids are the loaded ids with the left id removed, in the same order. */
  lemma {:induction false} RemainingIds(groups: seq<Group>, groupId: string)
    ensures GroupIds(Remaining(groups, groupId)) == RemoveAll(GroupIds(groups), groupId)
  {
    if groups != [] {
      RemainingIds(groups[1..], groupId);
      var ids := GroupIds(groups);
      assert ids[1..] == GroupIds(groups[1..]);
      if groups[0].id != groupId {
        assert GroupIds(Remaining(groups, groupId))[1..] == GroupIds(Remaining(groups[1..], groupId));
      }
    }
  }

  /** The next active id right after leaving: the first remaining group, or none. */
  function NextActiveAfterLeave(groups: seq<Group>, groupId: string): (r: Option<string>)
    ensures r.Some? ==> r.value != groupId && exists g :: g in groups && g.id == r.value
    ensures r.None? <==> forall g :: g in groups ==> g.id == groupId
  {
    var rest := Remaining(groups, groupId);
    if |rest| > 0 then Some(rest[0].id) else None
  }

  /** The immediate choice after leaving is the one the next sync would make
      with the left group still marked active. */
  lemma NextActiveIsReconcile(groups: seq<Group>, groupId: string)
    ensures NextActiveAfterLeave(groups, groupId) == Reconcile(Some(groupId), Remaining(groups, groupId))
  {
  }

  /** Resolving ids in a store after a leave gives groups with the same ids
      as before: leaving changes only a group's users. */
  lemma LeaveKeepsResolution(s: Store, groupId: string, id: string)
    requires KeysAgree(s)
    ensures KeysAgree(LeaveGroup(s, groupId))
    ensures GetGroupById(LeaveGroup(s, groupId), id).Some? == GetGroupById(s, id).Some?
  {
    var s' := LeaveGroup(s, groupId);
    assert SameIds(s.groups, s'.groups);
    FindKeyByIdSameIds(s.groups, s'.groups, s.keyOrder, id);
  }

  lemma {:induction false} LoadAfterLeaveIds(s: Store, groupId: string, ids: seq<string>)
    requires KeysAgree(s)
    ensures KeysAgree(LeaveGroup(s, groupId))
    ensures GroupIds(LoadGroups(LeaveGroup(s, groupId), RemoveAll(ids, groupId)))
         == GroupIds(Remaining(LoadGroups(s, ids), groupId))
  {
    LeaveKeepsResolution(s, groupId, groupId);
    if ids != [] {
      var s' := LeaveGroup(s, groupId);
      LoadAfterLeaveIds(s, groupId, ids[1..]);
      LeaveKeepsResolution(s, groupId, ids[0]);
      if ids[0] != groupId {
        assert RemoveAll(ids, groupId) == [ids[0]] + RemoveAll(ids[1..], groupId);
        assert RemoveAll(ids, groupId)[1..] == RemoveAll(ids[1..], groupId);
      }
    }
  }

  /** After leaving, the next sync loads exactly the groups the immediate
      update kept (by id, in order): the left id never comes back. */
  lemma SyncAfterLeave(s: Store, groupId: string, active: Option<string>)
    requires KeysAgree(s)
    ensures KeysAgree(LeaveGroup(s, groupId))
    ensures GroupIds(Sync(LeaveGroup(s, groupId), active).groups)
         == GroupIds(Remaining(Sync(s, active).groups, groupId))
  {
    LoadAfterLeaveIds(s, groupId, s.myGroupIds);
  }

  /** `logs.filter(l => l.counterId === counter.id).length`. */
  function CounterTotal(logs: seq<LogEntry>, counterId: string): (n: nat)
    ensures n <= |logs|
    ensures n == 0 <==> forall i :: 0 <= i < |logs| ==> logs[i].counterId != counterId
  {
    if logs == [] then 0
    else (if logs[0].counterId == counterId then 1 else 0) + CounterTotal(logs[1..], counterId)
  }

  lemma {:induction false} CounterTotalAppend(logs: seq<LogEntry>, l: LogEntry, counterId: string)
    ensures CounterTotal(logs + [l], counterId) == CounterTotal(logs, counterId) + if l.counterId == counterId then 1 else 0
  {
    if logs != [] {
      assert (logs + [l])[1..] == logs[1..] + [l];
      CounterTotalAppend(logs[1..], l, counterId);
    }
  }

  /** Appending a log raises exactly its own counter's total, by one. */
  lemma AddLogRaisesTotal(s: Store, code: string, log: LogEntry, counterId: string)
    requires code in s.groups
    ensures CounterTotal(AddLog(s, code, log).groups[code].logs, counterId)
         == CounterTotal(s.groups[code].logs, counterId) + if log.counterId == counterId then 1 else 0
  {
    CounterTotalAppend(s.groups[code].logs, log, counterId);
  }

  /** The sum of every user's count for a counter. */
  function SumCounts(users: seq<User>, logs: seq<LogEntry>, counterId: string): nat
  {
    if users == [] then 0
    else Leaderboard.LogCount(logs, counterId, users[0].id) + SumCounts(users[1..], logs, counterId)
  }

  /** The number of users with the given id. */
  function Occurrences(users: seq<User>, id: string): nat
  {
    if users == [] then 0 else (if users[0].id == id then 1 else 0) + Occurrences(users[1..], id)
  }

  lemma {:induction false} OccurrencesOfDistinct(users: seq<User>, id: string)
    requires DistinctIds(users)
    ensures Occurrences(users, id) == if HasUser(users, id) then 1 else 0
  {
    if users != [] {
      OccurrencesOfDistinct(users[1..], id);
      if users[0].id == id {
        assert !HasUser(users[1..], id) by {
          forall i | 0 <= i < |users| - 1 ensures users[1..][i].id != id {
            assert users[1..][i] == users[i + 1];
          }
        }
      } else if HasUser(users, id) {
        var i :| 0 <= i < |users| && users[i].id == id;
        assert users[1..][i - 1].id == id;
      }
    }
  }

  lemma {:induction false} SumCountsAppend(users: seq<User>, logs: seq<LogEntry>, l: LogEntry, counterId: string)
    ensures SumCounts(users, logs + [l], counterId)
         == SumCounts(users, logs, counterId) + if l.counterId == counterId then Occurrences(users, l.userId) else 0
  {
    if users != [] {
      SumCountsAppend(users[1..], logs, l, counterId);
      Leaderboard.LogCountAppend(logs, l, counterId, users[0].id);
    }
  }

  /** Every log of this counter names a member of the group. */
  predicate LogsByMembers(users: seq<User>, logs: seq<LogEntry>, counterId: string)
  {
    forall i :: 0 <= i < |logs| && logs[i].counterId == counterId ==> HasUser(users, logs[i].userId)
  }

  /** When members have distinct ids and every log of the counter names a
      member, the per-user counts add up to the counter's total. */
  lemma {:induction false} SumCountsIsTotal(users: seq<User>, logs: seq<LogEntry>, counterId: string)
    requires DistinctIds(users) && LogsByMembers(users, logs, counterId)
    ensures SumCounts(users, logs, counterId) == CounterTotal(logs, counterId)
    decreases |logs|
  {
    if logs == [] {
      SumCountsZero(users, counterId);
    } else {
      var init := logs[..|logs| - 1];
      var l := logs[|logs| - 1];
      assert logs == init + [l];
      assert LogsByMembers(users, init, counterId) by {
        forall i | 0 <= i < |init| && init[i].counterId == counterId
          ensures HasUser(users, init[i].userId)
        {
          assert init[i] == logs[i];
        }
      }
      SumCountsIsTotal(users, init, counterId);
      SumCountsAppend(users, init, l, counterId);
      CounterTotalAppend(init, l, counterId);
      OccurrencesOfDistinct(users, l.userId);
    }
  }

  lemma {:induction false} SumCountsZero(users: seq<User>, counterId: string)
    ensures SumCounts(users, [], counterId) == 0
  {
    if users != [] {
      SumCountsZero(users[1..], counterId);
    }
  }

  /** The sum of a sequence of bars. */
  function SumEntries(es: seq<Leaderboard.Entry>): nat
  {
    if es == [] then 0 else es[0].count + SumEntries(es[1..])
  }

  lemma {:induction false} SumEntriesInsert(x: Leaderboard.Entry, es: seq<Leaderboard.Entry>)
    ensures SumEntries(Leaderboard.Insert(x, es)) == x.count + SumEntries(es)
  {
    if es != [] && x.count < es[0].count {
      SumEntriesInsert(x, es[1..]);
    }
  }

  lemma {:induction false} SumEntriesSort(es: seq<Leaderboard.Entry>)
    ensures SumEntries(Leaderboard.SortDesc(es)) == SumEntries(es)
  {
    if es != [] {
      SumEntriesSort(es[1..]);
      SumEntriesInsert(es[0], Leaderboard.SortDesc(es[1..]));
    }
  }

  lemma {:induction false} SumEntriesRows(users: seq<User>, logs: seq<LogEntry>, counterId: string)
    ensures SumEntries(Leaderboard.Rows(users, logs, counterId)) == SumCounts(users, logs, counterId)
  {
    if users != [] {
      SumEntriesRows(users[1..], logs, counterId);
      assert Leaderboard.Rows(users, logs, counterId)[1..] == Leaderboard.Rows(users[1..], logs, counterId);
    }
  }

  /** The bars of a chart add up to the total shown beside it whenever every
      log of the counter names a current member (ids distinct); with no bars,
      the total is zero. Logs of former members are the only gap. */
  lemma ChartAddsUpToTotal(users: seq<User>, logs: seq<LogEntry>, counterId: string)
    requires DistinctIds(users) && LogsByMembers(users, logs, counterId)
    ensures match Leaderboard.ComputeLeaderboard(users, logs, counterId)
      case NoData => CounterTotal(logs, counterId) == 0
      case Bars(es) => SumEntries(es) == CounterTotal(logs, counterId)
  {
    var rows := Leaderboard.Rows(users, logs, counterId);
    SumCountsIsTotal(users, logs, counterId);
    SumEntriesRows(users, logs, counterId);
    SumEntriesSort(rows);
    if Leaderboard.ComputeLeaderboard(users, logs, counterId).NoData? {
      SumCountsZeroWhenAllZero(users, logs, counterId);
    }
  }

  lemma {:induction false} SumCountsZeroWhenAllZero(users: seq<User>, logs: seq<LogEntry>, counterId: string)
    requires forall i :: 0 <= i < |users| ==> Leaderboard.LogCount(logs, counterId, users[i].id) == 0
    ensures SumCounts(users, logs, counterId) == 0
  {
    if users != [] {
      SumCountsZeroWhenAllZero(users[1..], logs, counterId);
    }
  }

  /** What `handleCreateCounter` does with the form. */
  datatype CounterRequest = Ignored | LimitReached | Submit(code: string, counter: Counter)

  /** The creation guard: an empty title, no active group or no profile
      ignores the form; ten counters in the displayed group raise the limit
      alert; otherwise a counter made by the profile goes to the group's code. */
  function CreateCounterRequest(
    title: string, emoji: string, color: string,
    activeGroup: Option<Group>, profile: Option<UserProfile>,
    counterId: string, now: int): (r: CounterRequest)
    ensures r.Ignored? <==> title == "" || activeGroup.None? || profile.None?
    ensures r.LimitReached? <==> !r.Ignored? && |activeGroup.value.counters| >= MaxCounters
    ensures r.Submit? ==>
      && r.code == activeGroup.value.code
      && r.counter.title == title && r.counter.emoji == emoji && r.counter.color == color
      && r.counter.id == counterId && r.counter.createdAt == now
      && r.counter.createdBy == profile.value.id
  {
    if title == "" || activeGroup.None? || profile.None? then Ignored
    else if |activeGroup.value.counters| >= MaxCounters then LimitReached
    else Submit(activeGroup.value.code, Counter(counterId, emoji, title, None, color, now, profile.value.id))
  }

  /** The guard mirrors the repository's cap: a submitted counter for a group
      displayed as stored is appended without error. */
  lemma SubmittedCounterIsStored(
    s: Store, title: string, emoji: string, color: string, g: Group, profile: Option<UserProfile>,
    counterId: string, now: int)
    requires g.code in s.groups && s.groups[g.code] == g
    requires CreateCounterRequest(title, emoji, color, Some(g), profile, counterId, now).Submit?
    ensures var req := CreateCounterRequest(title, emoji, color, Some(g), profile, counterId, now);
      && AddCounter(s, req.code, req.counter).Ok?
      && AddCounter(s, req.code, req.counter).value.groups[g.code].counters == g.counters + [req.counter]
  {
  }

  /** `handleIncrement`: with a profile and an active group, a log entry for
      the profile goes to the group's code. */
  function IncrementRequest(profile: Option<UserProfile>, activeGroup: Option<Group>, counterId: string, logId: string, now: int)
    : (r: Option<(string, LogEntry)>)
    ensures r.None? <==> profile.None? || activeGroup.None?
    ensures r.Some? ==>
      && r.value.0 == activeGroup.value.code
      && r.value.1.counterId == counterId && r.value.1.userId == profile.value.id
      && r.value.1.id == logId && r.value.1.timestamp == now
  {
    if profile.None? || activeGroup.None? then None
    else Some((activeGroup.value.code, LogEntry(logId, counterId, profile.value.id, now)))
  }

  /** A tap raises the tapping user's count for that counter by one and leaves
      every other user's count alone. */
  lemma IncrementCountsOnce(s: Store, p: UserProfile, g: Group, counterId: string, logId: string, now: int, userId: string)
    requires g.code in s.groups
    ensures var (code, log) := IncrementRequest(Some(p), Some(g), counterId, logId, now).value;
      Leaderboard.LogCount(AddLog(s, code, log).groups[code].logs, counterId, userId)
      == Leaderboard.LogCount(s.groups[code].logs, counterId, userId) + if userId == p.id then 1 else 0
  {
    var (code, log) := IncrementRequest(Some(p), Some(g), counterId, logId, now).value;
    Leaderboard.LogCountAppend(s.groups[code].logs, log, counterId, userId);
  }
}

=== FILE: leaderboard.dfy ===
/** The leaderboard of components/StatsCharts.tsx: per-user counts of one
    counter's log entries, ranked by a stable descending sort, with a
    distinguished "no data" outcome when every count is zero. */
module Leaderboard {
  import opened Types

  /** One bar of the chart. */
  datatype Entry = Entry(name: string, count: nat, color: string)

  /** What the chart shows: nothing to rank, or the ranked bars. */
  datatype Chart = NoData | Bars(entries: seq<Entry>)

  /** True when the log entry increments this counter on behalf of this user. */
  predicate Counts(l: LogEntry, counterId: string, userId: string)
  {
    l.counterId == counterId && l.userId == userId
  }

  /** How many log entries increment this counter on behalf of this user. */
  function LogCount(logs: seq<LogEntry>, counterId: string, userId: string): (n: nat)
    ensures n <= |logs|
    ensures n == 0 <==> forall i :: 0 <= i < |logs| ==> !Counts(logs[i], counterId, userId)
  {
    if logs == [] then 0
    else (if Counts(logs[0], counterId, userId) then 1 else 0) + LogCount(logs[1..], counterId, userId)
  }

  /** Appending an entry adds one to exactly the count it belongs to. */
  lemma {:induction false} LogCountAppend(logs: seq<LogEntry>, l: LogEntry, counterId: string, userId: string)
    ensures LogCount(logs + [l], counterId, userId)
         == LogCount(logs, counterId, userId) + if Counts(l, counterId, userId) then 1 else 0
  {
    if logs != [] {
      assert (logs + [l])[1..] == logs[1..] + [l];
      LogCountAppend(logs[1..], l, counterId, userId);
    }
  }

  /** `users.map(...)`: one row per user, in user order. */
  function Rows(users: seq<User>, logs: seq<LogEntry>, counterId: string): (r: seq<Entry>)
    ensures |r| == |users|
    ensures forall i :: 0 <= i < |users| ==>
      r[i] == Entry(users[i].name, LogCount(logs, counterId, users[i].id), users[i].color)
  {
    seq(|users|, i requires 0 <= i < |users| => Entry(users[i].name, LogCount(logs, counterId, users[i].id), users[i].color))
  }

  /** Non-increasing by count. */
  predicate SortedDesc(s: seq<Entry>)
  {
    forall i, j :: 0 <= i < j < |s| ==> s[i].count >= s[j].count
  }

  /** The entries with the given count, in their order. */
  function WithCount(s: seq<Entry>, c: nat): seq<Entry>
  {
    if s == [] then []
    else (if s[0].count == c then [s[0]] else []) + WithCount(s[1..], c)
  }

  /** The entries with a count are entries of the sequence, with that count. */
  lemma {:induction false} WithCountMembers(s: seq<Entry>, c: nat)
    ensures forall e :: e in WithCount(s, c) ==> e in s && e.count == c
  {
    if s != [] {
      WithCountMembers(s[1..], c);
    }
  }

  /** `output` is what a stable sort by descending count makes of `input`:
      sorted, and for every count the entries having it are the input's, in
      the input's order. This determines `output` (StableSortUnique). */
  ghost predicate IsStableSortDesc(input: seq<Entry>, output: seq<Entry>)
  {
    SortedDesc(output) && forall c: nat :: WithCount(output, c) == WithCount(input, c)
  }

  /** Places `x` before the first entry whose count does not exceed its own. */
  function Insert(x: Entry, s: seq<Entry>): (r: seq<Entry>)
    ensures |r| == |s| + 1
  {
    if s == [] then [x]
    else if x.count >= s[0].count then [x] + s
    else [s[0]] + Insert(x, s[1..])
  }

  /** Insertion adds exactly `x`. */
  lemma {:induction false} InsertMultiset(x: Entry, s: seq<Entry>)
    ensures multiset(Insert(x, s)) == multiset(s) + multiset{x}
  {
    if s != [] && x.count < s[0].count {
      InsertMultiset(x, s[1..]);
      assert s == [s[0]] + s[1..];
    }
  }

  /** Insertion into a sorted sequence keeps it sorted. */
  lemma {:induction false} InsertSorted(x: Entry, s: seq<Entry>)
    requires SortedDesc(s)
    ensures SortedDesc(Insert(x, s))
  {
    if s != [] && x.count < s[0].count {
      InsertSorted(x, s[1..]);
      InsertMultiset(x, s[1..]);
      var rest := Insert(x, s[1..]);
      var r := Insert(x, s);
      assert r == [s[0]] + rest;
      forall j | 0 <= j < |rest|
        ensures rest[j].count <= s[0].count
      {
        assert rest[j] in multiset(rest);
        if rest[j] != x {
          assert rest[j] in multiset(s[1..]);
          var k :| 0 <= k < |s[1..]| && s[1..][k] == rest[j];
          assert s[k + 1] == rest[j];
        }
      }
    }
  }

  /** Insertion keeps the equal-count entries' order, with `x` first among them. */
  lemma {:induction false} InsertWithCount(x: Entry, s: seq<Entry>, c: nat)
    ensures WithCount(Insert(x, s), c) == (if x.count == c then [x] else []) + WithCount(s, c)
  {
    if s == [] {
      assert Insert(x, s) == [x];
      assert [x][1..] == [];
    } else if x.count >= s[0].count {
      WithCountCons(x, s, c);
    } else {
      InsertWithCount(x, s[1..], c);
      InsertBelowHead(x, s, c);
    }
  }

  /** The entries with a count, of a sequence with a new head. */
  lemma WithCountCons(x: Entry, s: seq<Entry>, c: nat)
    ensures WithCount([x] + s, c) == (if x.count == c then [x] else []) + WithCount(s, c)
  {
    assert ([x] + s)[1..] == s;
  }

  /** The recursive step of InsertWithCount: `x` goes below the head. */
  lemma InsertBelowHead(x: Entry, s: seq<Entry>, c: nat)
    requires s != [] && x.count < s[0].count
    requires WithCount(Insert(x, s[1..]), c) == (if x.count == c then [x] else []) + WithCount(s[1..], c)
    ensures WithCount(Insert(x, s), c) == (if x.count == c then [x] else []) + WithCount(s, c)
  {
    var rest := Insert(x, s[1..]);
    assert Insert(x, s) == [s[0]] + rest;
    WithCountCons(s[0], rest, c);
    WithCountCons(s[0], s[1..], c);
    assert [s[0]] + s[1..] == s;
    if x.count == c {
      assert WithCount([s[0]] + rest, c) == WithCount(rest, c);
      assert WithCount(s, c) == WithCount(s[1..], c);
    } else {
      assert WithCount(rest, c) == WithCount(s[1..], c);
    }
  }

  /** The stable descending sort of the chart data. */
  function SortDesc(s: seq<Entry>): (r: seq<Entry>)
    ensures |r| == |s|
    ensures multiset(r) == multiset(s)
    ensures SortedDesc(r)
  {
    if s == [] then []
    else
      assert s == [s[0]] + s[1..];
      InsertSorted(s[0], SortDesc(s[1..]));
      InsertMultiset(s[0], SortDesc(s[1..]));
      Insert(s[0], SortDesc(s[1..]))
  }

  lemma {:induction false} SortDescWithCount(s: seq<Entry>, c: nat)
    ensures WithCount(SortDesc(s), c) == WithCount(s, c)
  {
    if s != [] {
      SortDescWithCount(s[1..], c);
      InsertWithCount(s[0], SortDesc(s[1..]), c);
    }
  }

  /** The sort is a stable descending sort. */
  lemma SortDescIsStable(s: seq<Entry>)
    ensures IsStableSortDesc(s, SortDesc(s))
  {
    forall c: nat
      ensures WithCount(SortDesc(s), c) == WithCount(s, c)
    {
      SortDescWithCount(s, c);
    }
  }

  /** Dropping a sorted sequence's head removes it from its count's entries only. */
  lemma WithCountTail(s: seq<Entry>, c: nat)
    requires s != []
    ensures WithCount(s[1..], c) == if s[0].count == c then WithCount(s, c)[1..] else WithCount(s, c)
  {
  }

  /** A non-empty sequence has an entry with its head's count. */
  lemma WithCountHead(s: seq<Entry>)
    requires s != []
    ensures WithCount(s, s[0].count) != []
  {
  }

  /** Any two stable descending sorts of the same input agree: the model's
      sort computes what every stable sort with this comparator computes. */
  lemma {:induction false} StableSortUnique(a: seq<Entry>, b: seq<Entry>)
    requires SortedDesc(a) && SortedDesc(b)
    requires forall c: nat :: WithCount(a, c) == WithCount(b, c)
    ensures a == b
    decreases |a| + |b|
  {
    if a == [] {
      if b != [] {
        WithCountHead(b);
        assert false;
      }
    } else if b == [] {
      WithCountHead(a);
      assert false;
    } else {
      var m := a[0].count;
      var n := b[0].count;
      assert WithCount(a, m)[0] == a[0];
      assert WithCount(b, n)[0] == b[0];
      WithCountMembers(a, n);
      WithCountMembers(b, m);
      var em := WithCount(b, m)[0];
      assert em in b && em.count == m;
      var en := WithCount(a, n)[0];
      assert en in a && en.count == n;
      assert n >= m by {
        var i :| 0 <= i < |b| && b[i] == em;
      }
      assert m >= n by {
        var i :| 0 <= i < |a| && a[i] == en;
      }
      assert a[0] == b[0];
      forall c: nat
        ensures WithCount(a[1..], c) == WithCount(b[1..], c)
      {
        WithCountTail(a, c);
        WithCountTail(b, c);
      }
      StableSortUnique(a[1..], b[1..]);
      assert a == [a[0]] + a[1..] && b == [b[0]] + b[1..];
    }
  }

  /** A rearrangement has a non-zero count exactly when the original has. */
  lemma AllZeroPermutation(a: seq<Entry>, b: seq<Entry>)
    requires multiset(a) == multiset(b)
    ensures (forall i :: 0 <= i < |a| ==> a[i].count == 0) <==> (forall i :: 0 <= i < |b| ==> b[i].count == 0)
  {
    forall i | 0 <= i < |a| ensures a[i] in b {
      assert a[i] in multiset(a);
    }
    forall i | 0 <= i < |b| ensures b[i] in a {
      assert b[i] in multiset(b);
    }
  }

  /** A sorted sequence with a non-zero count starts with one. */
  lemma NonZeroHead(s: seq<Entry>)
    requires SortedDesc(s)
    ensures !(forall i :: 0 <= i < |s| ==> s[i].count == 0) ==> |s| > 0 && s[0].count > 0
  {
  }

  /** `LeaderboardChart`'s data: the stably sorted rows, or NoData when every
      sorted row counts zero (no user, or no matching log entry). */
  function ComputeLeaderboard(users: seq<User>, logs: seq<LogEntry>, counterId: string): (r: Chart)
    ensures r.NoData? <==> forall i :: 0 <= i < |users| ==> LogCount(logs, counterId, users[i].id) == 0
    ensures r.Bars? ==> IsStableSortDesc(Rows(users, logs, counterId), r.entries)
    ensures r.Bars? ==> |r.entries| == |users| && r.entries[0].count > 0
  {
    var rows := Rows(users, logs, counterId);
    var data := SortDesc(rows);
    SortDescIsStable(rows);
    AllZeroPermutation(rows, data);
    NonZeroHead(data);
    if forall i :: 0 <= i < |data| ==> data[i].count == 0 then NoData else Bars(data)
  }

  /** Entries none of which counts for the user leave the user's count alone. */
  lemma {:induction false} CountIgnoresUnrelated(logs: seq<LogEntry>, extra: seq<LogEntry>, counterId: string, userId: string)
    requires forall j :: 0 <= j < |extra| ==> !Counts(extra[j], counterId, userId)
    ensures LogCount(logs + extra, counterId, userId) == LogCount(logs, counterId, userId)
    decreases |extra|
  {
    if extra != [] {
      var init := extra[..|extra| - 1];
      assert forall j :: 0 <= j < |init| ==> init[j] == extra[j];
      assert !Counts(extra[|extra| - 1], counterId, userId);
      CountIgnoresUnrelated(logs, init, counterId, userId);
      assert logs + extra == (logs + init) + [extra[|extra| - 1]];
      LogCountAppend(logs + init, extra[|extra| - 1], counterId, userId);
    } else {
      assert logs + extra == logs;
    }
  }

  /** Log entries of other counters, or by ids that are not members, never
      change the leaderboard. */
  lemma IgnoresUnrelatedLogs(users: seq<User>, logs: seq<LogEntry>, extra: seq<LogEntry>, counterId: string)
    requires forall j :: 0 <= j < |extra| ==> extra[j].counterId != counterId || !HasUser(users, extra[j].userId)
    ensures ComputeLeaderboard(users, logs + extra, counterId) == ComputeLeaderboard(users, logs, counterId)
  {
    forall i | 0 <= i < |users|
      ensures LogCount(logs + extra, counterId, users[i].id) == LogCount(logs, counterId, users[i].id)
    {
      CountIgnoresUnrelated(logs, extra, counterId, users[i].id);
    }
    assert Rows(users, logs + extra, counterId) == Rows(users, logs, counterId);
  }

  /** Two entries for the members in order [A, B] with three log entries
      (A, A, B) rank A first with 2 and B second with 1. */
  lemma TwoUserExample()
    ensures
      var a := User("a", "A", "😎", "#3b82f6", 0);
      var b := User("b", "B", "🤠", "#ef4444", 0);
      var logs := [LogEntry("1", "c", "a", 1), LogEntry("2", "c", "a", 2), LogEntry("3", "c", "b", 3)];
      ComputeLeaderboard([a, b], logs, "c") == Bars([Entry("A", 2, "#3b82f6"), Entry("B", 1, "#ef4444")])
  {
    var a := User("a", "A", "😎", "#3b82f6", 0);
    var b := User("b", "B", "🤠", "#ef4444", 0);
    var l1, l2, l3 := LogEntry("1", "c", "a", 1), LogEntry("2", "c", "a", 2), LogEntry("3", "c", "b", 3);
    var logs := [l1, l2, l3];
    assert "a" != "b" by { assert "a"[0] != "b"[0]; }
    assert logs[1..] == [l2, l3] && logs[1..][1..] == [l3] && logs[1..][1..][1..] == [];
    assert LogCount(logs[1..][1..], "c", "a") == 0;
    assert LogCount(logs[1..], "c", "a") == 1;
    assert LogCount(logs, "c", "a") == 2;
    assert LogCount(logs[1..][1..], "c", "b") == 1;
    assert LogCount(logs[1..], "c", "b") == 1;
    assert LogCount(logs, "c", "b") == 1;
    var ea, eb := Entry("A", 2, "#3b82f6"), Entry("B", 1, "#ef4444");
    var rows := Rows([a, b], logs, "c");
    assert rows == [ea, eb];
    assert rows[1..] == [eb];
    assert SortDesc([eb]) == Insert(eb, SortDesc([])) == [eb];
    assert SortDesc(rows) == Insert(ea, [eb]) == [ea, eb];
  }

  /** Ranking reorders: founder F listed first with one increment, member U
      with three, ranks U above F. */
  lemma ReorderExample()
    ensures
      var f := User("f", "F", "😎", "#3b82f6", 0);
      var u := User("u", "U", "🤠", "#ef4444", 1);
      var logs := [LogEntry("1", "s", "u", 1), LogEntry("2", "s", "u", 2), LogEntry("3", "s", "f", 3), LogEntry("4", "s", "u", 4)];
      ComputeLeaderboard([f, u], logs, "s") == Bars([Entry("U", 3, "#ef4444"), Entry("F", 1, "#3b82f6")])
  {
    var f := User("f", "F", "😎", "#3b82f6", 0);
    var u := User("u", "U", "🤠", "#ef4444", 1);
    var logs := [LogEntry("1", "s", "u", 1), LogEntry("2", "s", "u", 2), LogEntry("3", "s", "f", 3), LogEntry("4", "s", "u", 4)];
    assert "f" != "u" by { assert "f"[0] != "u"[0]; }
    assert LogCount(logs, "s", "f") == 1;
    assert LogCount(logs, "s", "u") == 3;
    var rows := Rows([f, u], logs, "s");
    assert rows == [Entry("F", 1, "#3b82f6"), Entry("U", 3, "#ef4444")];
    assert SortDesc(rows) == Insert(rows[0], SortDesc(rows[1..]));
    assert rows[1..] == [Entry("U", 3, "#ef4444")];
  }
}

=== FILE: storage.dfy ===
/** The group repository of Services/storage.ts over one snapshot of the
    three persisted values: the code-keyed map of groups, the local profile
    and the local membership index. Every operation is a pure function from
    the old snapshot to a new one; a failed operation returns an error and no
    snapshot, so the store it was given is the store that stays. Random
    values and clock readings are parameters. */
module Storage {
  import opened Wrappers
  import opened Types
  import Text

  /** How many groups the membership index may hold before create and join refuse. */
  const MaxGroupsPerUser: nat := 5
  /** How many users a group may hold before join refuses. */
  const MaxMembers: nat := 10
  /** How many counters a group may hold before addCounter refuses. */
  const MaxCounters: nat := 10

  /** The colours a new profile is given one of. */
  const Palette: seq<string> :=
    ["#3b82f6", "#ef4444", "#10b981", "#f59e0b", "#8b5cf6", "#ec4899", "#06b6d4"]

  /** The errors the repository throws, one per distinct message. */
  datatype StoreError =
    | MissingProfile   // "No profile found"
    | TooManyGroups    // "You can only have 5 active groups."
    | NotFound         // "Group not found."
    | AlreadyMember    // "You are already in this group."
    | GroupFull        // "Group is full (max 10 people)."
    | TooManyCounters  // "Max 10 counters allowed."

  /** The persisted state. `keyOrder` is the insertion order of the keys of
      the groups object, which decides which group a search by id meets first. */
  datatype Store = Store(
    groups: map<string, Group>,
    keyOrder: seq<string>,
    profile: Option<UserProfile>,
    myGroupIds: seq<string>)

  /** The key order lists every stored code exactly once. */
  predicate KeysAgree(s: Store)
  {
    && (forall i :: 0 <= i < |s.keyOrder| ==> s.keyOrder[i] in s.groups)
    && (forall k :: k in s.groups ==> k in s.keyOrder)
    && (forall i, j :: 0 <= i < j < |s.keyOrder| ==> s.keyOrder[i] != s.keyOrder[j])
  }

  /** What the three storage keys read as when nothing was ever written. */
  function EmptyStore(): (s: Store)
    ensures KeysAgree(s)
    ensures s.groups == map[] && s.profile.None? && s.myGroupIds == []
  {
    Store(map[], [], None, [])
  }

  /** A code as `generateCode` produces it: at most six upper-cased base-36 digits. */
  predicate IsGeneratedCode(code: string)
  {
    && |code| <= 6
    && forall i :: 0 <= i < |code| ==> Text.IsDigit(code[i]) || 'A' <= code[i] <= 'Z'
  }

  /** `groups[code] = g`: an existing key keeps its place, a new one goes last. */
  function PutGroup(s: Store, code: string, g: Group): (s': Store)
    ensures s'.groups == s.groups[code := g]
    ensures s'.profile == s.profile && s'.myGroupIds == s.myGroupIds
    ensures code in s.groups ==> s'.keyOrder == s.keyOrder
    ensures code !in s.groups ==> s'.keyOrder == s.keyOrder + [code]
    ensures KeysAgree(s) ==> KeysAgree(s')
  {
    var order := if code in s.groups then s.keyOrder else s.keyOrder + [code];
    Store(s.groups[code := g], order, s.profile, s.myGroupIds)
  }

  /** The first key, in key order, whose group has the given id. */
  function FindKeyById(groups: map<string, Group>, order: seq<string>, id: string): (r: Option<string>)
    ensures r.Some? ==> r.value in groups && r.value in order && groups[r.value].id == id
    ensures r.None? <==> forall i :: 0 <= i < |order| && order[i] in groups ==> groups[order[i]].id != id
    ensures r.Some? ==> exists i :: 0 <= i < |order| && order[i] == r.value
                          && forall j :: 0 <= j < i && order[j] in groups ==> groups[order[j]].id != id
  {
    if order == [] then None
    else if order[0] in groups && groups[order[0]].id == id then Some(order[0])
    else
      FindKeyById(groups, order[1..], id)
  }

  /** `getGroupById`: the first stored group with the given id, if any. */
  function GetGroupById(s: Store, id: string): (r: Option<Group>)
    requires KeysAgree(s)
    ensures r.Some? ==> r.value.id == id && r.value in s.groups.Values
    ensures r.None? <==> forall k :: k in s.groups ==> s.groups[k].id != id
  {
    match FindKeyById(s.groups, s.keyOrder, id)
    case None => None
    case Some(k) => Some(s.groups[k])
  }

  /** `createProfile`: a profile with a fresh id and a palette colour, saved
      (and so propagated) like any profile edit. */
  function CreateProfile(s: Store, name: string, avatar: string, id: string, colorIndex: nat): (r: (Store, UserProfile))
    requires colorIndex < |Palette|
    ensures r.1.id == id && r.1.name == name && r.1.avatar == avatar && r.1.color in Palette
    ensures r.0 == SaveUserProfile(s, r.1)
  {
    var p := UserProfile(id, name, avatar, Palette[colorIndex]);
    (SaveUserProfile(s, p), p)
  }

  /** `createGroup`: a new group whose only member is the local profile,
      stored under `code` (replacing whatever was stored there) and recorded
      at the end of the membership index. */
  function CreateGroup(s: Store, groupName: string, groupId: string, code: string, joinedAt: int, createdAt: int)
    : (r: Result<(Store, Group), StoreError>)
    requires IsGeneratedCode(code)
    ensures s.profile.None? ==> r == Err(MissingProfile)
    ensures s.profile.Some? && |s.myGroupIds| >= MaxGroupsPerUser ==> r == Err(TooManyGroups)
    ensures r.Ok? <==> s.profile.Some? && |s.myGroupIds| < MaxGroupsPerUser
    ensures r.Ok? ==>
      var (s', g) := r.value;
      && g.id == groupId && g.code == code && g.name == groupName && g.createdAt == createdAt
      && g.users == [Snapshot(s.profile.value, joinedAt)]
      && g.counters == [] && g.logs == []
      && s'.groups == s.groups[code := g]
      && s'.myGroupIds == s.myGroupIds + [groupId]
      && s'.profile == s.profile
      && s'.keyOrder == (if code in s.groups then s.keyOrder else s.keyOrder + [code])
      && (KeysAgree(s) ==> KeysAgree(s'))
  {
    if s.profile.None? then Err(MissingProfile)
    else if |s.myGroupIds| >= MaxGroupsPerUser then Err(TooManyGroups)
    else
      var g := Group(groupId, code, groupName, [Snapshot(s.profile.value, joinedAt)], [], [], createdAt);
      var s1 := PutGroup(s, code, g);
      Ok((s1.(myGroupIds := s.myGroupIds + [groupId]), g))
  }

  /** `joinGroup`: looks the group up by the upper-cased code and appends a
      snapshot of the local profile. The checks run in this order: profile,
      membership-index size, lookup, membership (against the index, not the
      group's users), group size. */
  function JoinGroup(s: Store, code: string, joinedAt: int): (r: Result<(Store, Group), StoreError>)
    ensures s.profile.None? ==> r == Err(MissingProfile)
    ensures s.profile.Some? && |s.myGroupIds| >= MaxGroupsPerUser ==> r == Err(TooManyGroups)
    ensures s.profile.Some? && |s.myGroupIds| < MaxGroupsPerUser && Text.Upper(code) !in s.groups
            ==> r == Err(NotFound)
    ensures s.profile.Some? && |s.myGroupIds| < MaxGroupsPerUser && Text.Upper(code) in s.groups
            && s.groups[Text.Upper(code)].id in s.myGroupIds
            ==> r == Err(AlreadyMember)
    ensures s.profile.Some? && |s.myGroupIds| < MaxGroupsPerUser && Text.Upper(code) in s.groups
            && s.groups[Text.Upper(code)].id !in s.myGroupIds
            && |s.groups[Text.Upper(code)].users| >= MaxMembers
            ==> r == Err(GroupFull)
    ensures r.Ok? <==>
      && s.profile.Some? && |s.myGroupIds| < MaxGroupsPerUser && Text.Upper(code) in s.groups
      && s.groups[Text.Upper(code)].id !in s.myGroupIds
      && |s.groups[Text.Upper(code)].users| < MaxMembers
    ensures r.Ok? ==>
      var key := Text.Upper(code);
      var (s', g') := r.value;
      && key in s.groups
      && var g := s.groups[key];
      && |g.users| < MaxMembers && g.id !in s.myGroupIds
      && g'.users == g.users + [Snapshot(s.profile.value, joinedAt)]
      && g' == g.(users := g'.users)
      && s'.groups == s.groups[key := g']
      && s'.keyOrder == s.keyOrder
      && s'.myGroupIds == s.myGroupIds + [g.id]
      && s'.profile == s.profile
  {
    if s.profile.None? then Err(MissingProfile)
    else if |s.myGroupIds| >= MaxGroupsPerUser then Err(TooManyGroups)
    else
      var key := Text.Upper(code);
      if key !in s.groups then Err(NotFound)
      else
        var g := s.groups[key];
        if g.id in s.myGroupIds then Err(AlreadyMember)
        else if |g.users| >= MaxMembers then Err(GroupFull)
        else
          var g' := g.(users := g.users + [Snapshot(s.profile.value, joinedAt)]);
          var s1 := PutGroup(s, key, g');
          Ok((s1.(myGroupIds := s.myGroupIds + [g.id]), g'))
  }

  /** `users.filter(u => u.id !== id)`. */
  function RemoveUsers(users: seq<User>, id: string): (r: seq<User>)
    ensures !HasUser(r, id)
    ensures |r| <= |users|
    ensures forall i :: 0 <= i < |r| ==> r[i] in users
    ensures forall u :: u in users && u.id != id ==> u in r
    ensures !HasUser(users, id) ==> r == users
  {
    if users == [] then []
    else
      var rest := RemoveUsers(users[1..], id);
      if users[0].id == id then rest else [users[0]] + rest
  }

  /** `ids.filter(x => x !== id)`. */
  function RemoveAll(ids: seq<string>, id: string): (r: seq<string>)
    ensures id !in r
    ensures multiset(r) == multiset(ids)[id := 0]
    ensures id !in ids ==> r == ids
  {
    if ids == [] then []
    else
      var rest := RemoveAll(ids[1..], id);
      assert ids == [ids[0]] + ids[1..];
      if ids[0] == id then rest else [ids[0]] + rest
  }

  /** The filter keeps order: filtering a concatenation filters each part in turn. */
  lemma {:induction false} RemoveUsersAppend(a: seq<User>, b: seq<User>, id: string)
    ensures RemoveUsers(a + b, id) == RemoveUsers(a, id) + RemoveUsers(b, id)
  {
    if a != [] {
      assert (a + b)[1..] == a[1..] + b;
      RemoveUsersAppend(a[1..], b, id);
    } else {
      assert a + b == b;
    }
  }

  /** On one record the filter keeps it exactly when its id differs. */
  lemma RemoveUsersSingleton(u: User, id: string)
    ensures RemoveUsers([u], id) == if u.id == id then [] else [u]
  {
  }

  /** The index filter keeps order: filtering a concatenation filters each part in turn. */
  lemma {:induction false} RemoveAllAppend(a: seq<string>, b: seq<string>, id: string)
    ensures RemoveAll(a + b, id) == RemoveAll(a, id) + RemoveAll(b, id)
  {
    if a != [] {
      assert (a + b)[1..] == a[1..] + b;
      RemoveAllAppend(a[1..], b, id);
    } else {
      assert a + b == b;
    }
  }

  /** On one index entry the filter keeps it exactly when it differs. */
  lemma RemoveAllSingleton(x: string, id: string)
    ensures RemoveAll([x], id) == if x == id then [] else [x]
  {
  }

  /** `leaveGroup`: when a profile exists, removes every user with its id from
      the first group carrying `groupId`, unless that group is stored under the
      empty code (an empty key is falsy, so the update is skipped); in every
      case removes every occurrence of `groupId` from the membership index.
      No group is deleted. */
  function LeaveGroup(s: Store, groupId: string): (s': Store)
    ensures s'.myGroupIds == RemoveAll(s.myGroupIds, groupId)
    ensures groupId !in s'.myGroupIds
    ensures multiset(s'.myGroupIds) == multiset(s.myGroupIds)[groupId := 0]
    ensures s'.profile == s.profile && s'.keyOrder == s.keyOrder
    ensures s'.groups.Keys == s.groups.Keys
    ensures forall k :: k in s.groups ==> s'.groups[k] == s.groups[k].(users := s'.groups[k].users)
    ensures s.profile.None? ==> s'.groups == s.groups
    ensures forall k :: s.profile.Some? && FindKeyById(s.groups, s.keyOrder, groupId) == Some(k) && k != "" ==>
      && !HasUser(s'.groups[k].users, s.profile.value.id)
      && s'.groups[k].users == RemoveUsers(s.groups[k].users, s.profile.value.id)
    ensures FindKeyById(s.groups, s.keyOrder, groupId) == Some("") ==> s'.groups == s.groups
    ensures forall k :: k in s.groups && Some(k) != FindKeyById(s.groups, s.keyOrder, groupId) ==>
      s'.groups[k] == s.groups[k]
  {
    var groups :=
      if s.profile.None? then s.groups
      else match FindKeyById(s.groups, s.keyOrder, groupId)
        case None => s.groups
        case Some(k) =>
          if k == "" then s.groups
          else s.groups[k := s.groups[k].(users := RemoveUsers(s.groups[k].users, s.profile.value.id))];
    s.(groups := groups, myGroupIds := RemoveAll(s.myGroupIds, groupId))
  }

  /** `addCounter`: an unknown code (matched exactly, not upper-cased) is a
      silent no-op; a group with ten counters refuses; otherwise the counter is
      appended and nothing else changes. */
  function AddCounter(s: Store, code: string, counter: Counter): (r: Result<Store, StoreError>)
    ensures code !in s.groups ==> r == Ok(s)
    ensures code in s.groups && |s.groups[code].counters| >= MaxCounters ==> r == Err(TooManyCounters)
    ensures r.Err? ==> r.error == TooManyCounters
    ensures code in s.groups && |s.groups[code].counters| < MaxCounters ==>
      && r.Ok?
      && r.value.groups == s.groups[code := s.groups[code].(counters := s.groups[code].counters + [counter])]
      && r.value.keyOrder == s.keyOrder && r.value.profile == s.profile && r.value.myGroupIds == s.myGroupIds
  {
    if code !in s.groups then Ok(s)
    else
      var g := s.groups[code];
      if |g.counters| >= MaxCounters then Err(TooManyCounters)
      else Ok(PutGroup(s, code, g.(counters := g.counters + [counter])))
  }

  /** `addLog`: appends the entry to the group stored under exactly `code`,
      without checking that its counter or user exist; an unknown code is a
      no-op. */
  function AddLog(s: Store, code: string, log: LogEntry): (s': Store)
    ensures code !in s.groups ==> s' == s
    ensures code in s.groups ==>
      && s'.groups == s.groups[code := s.groups[code].(logs := s.groups[code].logs + [log])]
      && s'.keyOrder == s.keyOrder && s'.profile == s.profile && s'.myGroupIds == s.myGroupIds
  {
    if code !in s.groups then s
    else
      var g := s.groups[code];
      PutGroup(s, code, g.(logs := g.logs + [log]))
  }

  /** The position of the first user with the given id. */
  function FirstUserIndex(users: seq<User>, id: string): (r: Option<nat>)
    ensures r.Some? ==> r.value < |users| && users[r.value].id == id
                        && forall j :: 0 <= j < r.value ==> users[j].id != id
    ensures r.None? <==> !HasUser(users, id)
  {
    if users == [] then None
    else if users[0].id == id then Some(0)
    else
      var r := FirstUserIndex(users[1..], id);
      if r.Some? then Some(r.value + 1) else None
  }

  /** A user's displayed identity replaced by the profile's. */
  function Retouch(u: User, p: UserProfile): (u': User)
    ensures u'.id == u.id && u'.joinedAt == u.joinedAt
    ensures u'.name == p.name && u'.avatar == p.avatar && u'.color == p.color
  {
    u.(name := p.name, avatar := p.avatar, color := p.color)
  }

  /** Copies the profile's name, avatar and colour onto the group's first
      user with the profile's id; a group without such a user is unchanged. */
  function SyncUser(g: Group, p: UserProfile): (g': Group)
    ensures g' == g.(users := g'.users)
    ensures |g'.users| == |g.users|
    ensures forall i :: 0 <= i < |g.users| ==> g'.users[i].id == g.users[i].id && g'.users[i].joinedAt == g.users[i].joinedAt
    ensures !HasUser(g.users, p.id) ==> g' == g
    ensures HasUser(g.users, p.id) ==>
      exists i :: 0 <= i < |g.users| && g.users[i].id == p.id
        && (forall j :: 0 <= j < i ==> g.users[j].id != p.id)
        && g'.users == g.users[i := Retouch(g.users[i], p)]
  {
    match FirstUserIndex(g.users, p.id)
    case None => g
    case Some(i) => g.(users := g.users[i := Retouch(g.users[i], p)])
  }

  /** The fold of storage.ts:41-53: for each index entry in order, the first
      group carrying that id gets the profile synced into it, unless it is
      stored under the empty code (an empty key is falsy). */
  function Propagate(groups: map<string, Group>, order: seq<string>, ids: seq<string>, p: UserProfile)
    : (r: map<string, Group>)
    ensures r.Keys == groups.Keys
    ensures forall k :: k in groups ==> r[k].id == groups[k].id && |r[k].users| == |groups[k].users|
    decreases |ids|
  {
    if ids == [] then groups
    else
      var prev := Propagate(groups, order, ids[..|ids| - 1], p);
      SyncAt(prev, FindKeyById(prev, order, ids[|ids| - 1]), p)
  }

  /** One step of that loop: the group stored under the key found gets the
      profile synced into it, unless no key was found or the key is the
      empty (falsy) one. */
  function SyncAt(groups: map<string, Group>, key: Option<string>, p: UserProfile): (r: map<string, Group>)
    requires key.Some? ==> key.value in groups
    ensures r.Keys == groups.Keys
    ensures forall k :: k in groups ==> r[k] == if key == Some(k) && k != "" then SyncUser(groups[k], p) else groups[k]
  {
    match key
    case None => groups
    case Some(k) => if k == "" then groups else groups[k := SyncUser(groups[k], p)]
  }

  /** Some index entry's first id match is the group stored under `k`. */
  predicate ResolvedBy(groups: map<string, Group>, order: seq<string>, ids: seq<string>, k: string)
  {
    exists i :: 0 <= i < |ids| && FindKeyById(groups, order, ids[i]) == Some(k)
  }

  /** The effect of propagation stated group by group, independently of the
      iteration: every group some index entry resolves to is synced once,
      except one stored under the empty code. */
  function PropagateSpec(groups: map<string, Group>, order: seq<string>, ids: seq<string>, p: UserProfile)
    : map<string, Group>
  {
    map k | k in groups :: if k != "" && ResolvedBy(groups, order, ids, k) then SyncUser(groups[k], p) else groups[k]
  }

  /** Two group maps with the same keys whose groups carry the same ids. */
  predicate SameIds(a: map<string, Group>, b: map<string, Group>)
  {
    a.Keys == b.Keys && forall k :: k in a ==> a[k].id == b[k].id
  }

  /** A search by id depends only on the keys and the groups' ids. */
  lemma {:induction false} FindKeyByIdSameIds(a: map<string, Group>, b: map<string, Group>, order: seq<string>, id: string)
    requires SameIds(a, b)
    ensures FindKeyById(a, order, id) == FindKeyById(b, order, id)
  {
    if order != [] {
      FindKeyByIdSameIds(a, b, order[1..], id);
    }
  }

  /** Syncing the same profile twice is syncing it once. */
  lemma SyncUserIdempotent(g: Group, p: UserProfile)
    ensures SyncUser(SyncUser(g, p), p) == SyncUser(g, p)
  {
    var g1 := SyncUser(g, p);
    if HasUser(g.users, p.id) {
      var i := FirstUserIndex(g.users, p.id).value;
      var i1 := FirstUserIndex(g1.users, p.id);
      assert HasUser(g1.users, p.id) by { assert g1.users[i].id == p.id; }
      assert i1.value == i;
    }
  }

  /** An index with one more entry resolves exactly the groups the shorter
      one did plus the new entry's first match. */
  lemma ResolvedBySnoc(groups: map<string, Group>, order: seq<string>, ids: seq<string>, k: string)
    requires ids != []
    ensures ResolvedBy(groups, order, ids, k)
       <==> ResolvedBy(groups, order, ids[..|ids| - 1], k) || FindKeyById(groups, order, ids[|ids| - 1]) == Some(k)
  {
    var ids' := ids[..|ids| - 1];
    if ResolvedBy(groups, order, ids, k) {
      var i :| 0 <= i < |ids| && FindKeyById(groups, order, ids[i]) == Some(k);
      if i < |ids| - 1 {
        assert ids'[i] == ids[i];
      }
    }
    if ResolvedBy(groups, order, ids', k) {
      var i :| 0 <= i < |ids'| && FindKeyById(groups, order, ids'[i]) == Some(k);
      assert ids[i] == ids'[i];
    }
  }

  /** The group-by-group effect, extended by one more index entry. */
  lemma PropagateSpecSnoc(groups: map<string, Group>, order: seq<string>, ids: seq<string>, p: UserProfile)
    requires ids != []
    ensures PropagateSpec(groups, order, ids, p)
         == SyncAt(PropagateSpec(groups, order, ids[..|ids| - 1], p), FindKeyById(groups, order, ids[|ids| - 1]), p)
  {
    var prev := PropagateSpec(groups, order, ids[..|ids| - 1], p);
    var spec := PropagateSpec(groups, order, ids, p);
    var f := FindKeyById(groups, order, ids[|ids| - 1]);
    var next := SyncAt(prev, f, p);
    forall k | k in groups
      ensures spec[k] == next[k]
    {
      ResolvedBySnoc(groups, order, ids, k);
      if f == Some(k) && k != "" {
        SyncUserIdempotent(groups[k], p);
      }
    }
    assert spec.Keys == next.Keys;
  }

  /** The iteration of storage.ts:41-53 computes the group-by-group effect. */
  lemma {:induction false} PropagateMatchesSpec(groups: map<string, Group>, order: seq<string>, ids: seq<string>, p: UserProfile)
    ensures Propagate(groups, order, ids, p) == PropagateSpec(groups, order, ids, p)
    decreases |ids|
  {
    if ids == [] {
      assert PropagateSpec(groups, order, ids, p) == groups;
    } else {
      var ids' := ids[..|ids| - 1];
      PropagateMatchesSpec(groups, order, ids', p);
      var prev := PropagateSpec(groups, order, ids', p);
      assert SameIds(groups, prev);
      FindKeyByIdSameIds(groups, prev, order, ids[|ids| - 1]);
      PropagateSpecSnoc(groups, order, ids, p);
    }
  }

  /** `saveUserProfile`: stores the profile and syncs it into every group an
      index entry resolves to, except one stored under the empty code; stale
      entries are skipped. Keys, key order, the
      index, and every user's id and join time are untouched. */
  function SaveUserProfile(s: Store, p: UserProfile): (s': Store)
    ensures s'.profile == Some(p)
    ensures s'.keyOrder == s.keyOrder && s'.myGroupIds == s.myGroupIds
    ensures s'.groups.Keys == s.groups.Keys
    ensures forall k :: k in s.groups ==>
      s'.groups[k] == if k != "" && ResolvedBy(s.groups, s.keyOrder, s.myGroupIds, k) then SyncUser(s.groups[k], p) else s.groups[k]
  {
    PropagateMatchesSpec(s.groups, s.keyOrder, s.myGroupIds, p);
    s.(profile := Some(p), groups := Propagate(s.groups, s.keyOrder, s.myGroupIds, p))
  }
}

=== FILE: storage_proofs.dfy ===
/** Properties of the group repository that relate several operations or
    hold across every operation: capacity bounds, one membership record per
    user id, the membership index covering the groups the local profile is
    in, idempotence and round trips between operations. */
module StorageProofs {
  import opened Wrappers
  import opened Types
  import opened Storage
  import Text

  /** Every group within the member and counter caps. */
  predicate WithinCaps(s: Store)
  {
    forall k :: k in s.groups ==> |s.groups[k].users| <= MaxMembers && |s.groups[k].counters| <= MaxCounters
  }

  /** Every group holds at most one membership record per user id. */
  predicate UniqueMembers(s: Store)
  {
    forall k :: k in s.groups ==> DistinctIds(s.groups[k].users)
  }

  /** Every group the local profile is a member of is in the membership index. */
  predicate IndexCovers(s: Store)
  {
    s.profile.Some? ==>
      forall k :: k in s.groups && HasUser(s.groups[k].users, s.profile.value.id) ==> s.groups[k].id in s.myGroupIds
  }

  /** No two stored groups share an id. */
  predicate UniqueGroupIds(s: Store)
  {
    forall k1, k2 :: k1 in s.groups && k2 in s.groups && k1 != k2 ==> s.groups[k1].id != s.groups[k2].id
  }

  /** No group is stored under the empty code, which leave and save skip. */
  predicate NoEmptyCode(s: Store)
  {
    "" !in s.groups
  }

  /** The state every sequence of operations from an empty store keeps, as
      long as no group is created under the empty code. */
  predicate Healthy(s: Store)
  {
    KeysAgree(s) && WithinCaps(s) && UniqueMembers(s) && IndexCovers(s) && UniqueGroupIds(s) && NoEmptyCode(s)
  }

  /** A fresh group id: no stored group, other than the one a create would
      overwrite, carries it. */
  predicate FreshGroupId(s: Store, code: string, groupId: string)
  {
    forall k :: k in s.groups && k != code ==> s.groups[k].id != groupId
  }

  lemma EmptyStoreHealthy()
    ensures Healthy(EmptyStore())
  {
  }

  // ---- capacity bounds -------------------------------------------------

  /** Creating a group keeps every group within the caps. */
  lemma CreateKeepsCaps(s: Store, groupName: string, groupId: string, code: string, joinedAt: int, createdAt: int)
    requires IsGeneratedCode(code)
    requires WithinCaps(s)
    ensures CreateGroup(s, groupName, groupId, code, joinedAt, createdAt).Ok? ==>
      WithinCaps(CreateGroup(s, groupName, groupId, code, joinedAt, createdAt).value.0)
  {
  }

  /** Joining refuses a full group, so every group stays within the caps. */
  lemma JoinKeepsCaps(s: Store, code: string, joinedAt: int)
    requires WithinCaps(s)
    ensures JoinGroup(s, code, joinedAt).Ok? ==> WithinCaps(JoinGroup(s, code, joinedAt).value.0)
  {
  }

  /** Adding a counter refuses at ten, so every group stays within the caps. */
  lemma AddCounterKeepsCaps(s: Store, code: string, counter: Counter)
    requires WithinCaps(s)
    ensures AddCounter(s, code, counter).Ok? ==> WithinCaps(AddCounter(s, code, counter).value)
  {
  }

  // ---- one record per user id --------------------------------------------

  /** Join checks membership against the index only, so it keeps each group's
      user ids distinct exactly when the index covers the profile's groups. */
  lemma JoinKeepsMembersUnique(s: Store, code: string, joinedAt: int)
    requires UniqueMembers(s) && IndexCovers(s)
    ensures JoinGroup(s, code, joinedAt).Ok? ==> UniqueMembers(JoinGroup(s, code, joinedAt).value.0)
  {
    var r := JoinGroup(s, code, joinedAt);
    if r.Ok? {
      var key := Text.Upper(code);
      var g := s.groups[key];
      var p := s.profile.value;
      assert !HasUser(g.users, p.id);
      var users' := r.value.1.users;
      assert users' == g.users + [Snapshot(p, joinedAt)];
      forall i, j | 0 <= i < j < |users'|
        ensures users'[i].id != users'[j].id
      {
        if j == |users'| - 1 {
          assert users'[i] == g.users[i];
        }
      }
    }
  }

  /** Without the index covering the group, a second record for the same id
      gets in: the profile is in the group's users but the index is empty. */
  lemma JoinDuplicatesWhenIndexIsStale()
    ensures
      var p := UserProfile("u1", "Ann", "A", "#3b82f6");
      var g := Group("g1", "ABC", "Trip", [Snapshot(p, 0)], [], [], 0);
      var s := Store(map["ABC" := g], ["ABC"], Some(p), []);
      && !IndexCovers(s)
      && JoinGroup(s, "abc", 1).Ok?
      && !DistinctIds(JoinGroup(s, "abc", 1).value.1.users)
  {
    var p := UserProfile("u1", "Ann", "A", "#3b82f6");
    var g := Group("g1", "ABC", "Trip", [Snapshot(p, 0)], [], [], 0);
    var s := Store(map["ABC" := g], ["ABC"], Some(p), []);
    assert HasUser(g.users, "u1") by { assert g.users[0].id == "u1"; }
    assert Text.Upper("abc") == "ABC";
    var users' := JoinGroup(s, "abc", 1).value.1.users;
    assert users'[0].id == users'[1].id;
  }

  // ---- the whole invariant -------------------------------------------------

  lemma {:induction false} CreateKeepsHealthy(s: Store, groupName: string, groupId: string, code: string, joinedAt: int, createdAt: int)
    requires IsGeneratedCode(code)
    requires Healthy(s) && FreshGroupId(s, code, groupId) && code != ""
    ensures CreateGroup(s, groupName, groupId, code, joinedAt, createdAt).Ok? ==>
      Healthy(CreateGroup(s, groupName, groupId, code, joinedAt, createdAt).value.0)
  {
    var r := CreateGroup(s, groupName, groupId, code, joinedAt, createdAt);
    if r.Ok? {
      var s' := r.value.0;
      var p := s.profile.value;
      forall k | k in s'.groups && HasUser(s'.groups[k].users, p.id)
        ensures s'.groups[k].id in s'.myGroupIds
      {
        if k != code {
          assert s'.groups[k] == s.groups[k];
          assert s.groups[k].id in s.myGroupIds;
        }
      }
    }
  }

  lemma JoinKeepsHealthy(s: Store, code: string, joinedAt: int)
    requires Healthy(s)
    ensures JoinGroup(s, code, joinedAt).Ok? ==> Healthy(JoinGroup(s, code, joinedAt).value.0)
  {
    JoinKeepsMembersUnique(s, code, joinedAt);
    var r := JoinGroup(s, code, joinedAt);
    if r.Ok? {
      var s' := r.value.0;
      var key := Text.Upper(code);
      var p := s.profile.value;
      forall k | k in s'.groups && HasUser(s'.groups[k].users, p.id)
        ensures s'.groups[k].id in s'.myGroupIds
      {
        if k != key {
          assert s'.groups[k] == s.groups[k];
        }
      }
    }
  }

  lemma LeaveKeepsHealthy(s: Store, groupId: string)
    requires Healthy(s)
    ensures Healthy(LeaveGroup(s, groupId))
  {
    LeaveKeepsMembersUnique(s, groupId);
    LeaveKeepsIndexCover(s, groupId);
  }

  /** Leaving filters one group's records, which keeps its ids distinct. */
  lemma LeaveKeepsMembersUnique(s: Store, groupId: string)
    requires UniqueMembers(s)
    ensures UniqueMembers(LeaveGroup(s, groupId))
  {
    var s' := LeaveGroup(s, groupId);
    forall k | k in s'.groups
      ensures DistinctIds(s'.groups[k].users)
    {
      var users := s.groups[k].users;
      if s.profile.Some? && FindKeyById(s.groups, s.keyOrder, groupId) == Some(k) && k != "" {
        RemoveUsersKeepsDistinct(users, s.profile.value.id);
      }
    }
  }

  /** Leaving drops the id from the index only where the profile's records
      go too: group ids are distinct, and no group sits under the empty code. */
  lemma LeaveKeepsIndexCover(s: Store, groupId: string)
    requires KeysAgree(s) && IndexCovers(s) && UniqueGroupIds(s) && NoEmptyCode(s)
    ensures IndexCovers(LeaveGroup(s, groupId))
  {
    var s' := LeaveGroup(s, groupId);
    if s.profile.Some? {
      var p := s.profile.value;
      var f := FindKeyById(s.groups, s.keyOrder, groupId);
      if f.Some? && f.value != "" {
        assert !HasUser(s'.groups[f.value].users, p.id);
      }
      forall k | k in s'.groups && HasUser(s'.groups[k].users, p.id)
        ensures s'.groups[k].id in s'.myGroupIds
      {
        assert k != "";
        assert s'.groups[k] == s.groups[k];
        assert s.groups[k].id != groupId;
        assert multiset(s'.myGroupIds)[s.groups[k].id] == multiset(s.myGroupIds)[s.groups[k].id];
      }
    }
  }

  lemma AddCounterKeepsHealthy(s: Store, code: string, counter: Counter)
    requires Healthy(s)
    ensures AddCounter(s, code, counter).Ok? ==> Healthy(AddCounter(s, code, counter).value)
  {
  }

  lemma AddLogKeepsHealthy(s: Store, code: string, log: LogEntry)
    requires Healthy(s)
    ensures Healthy(AddLog(s, code, log))
  {
  }

  /** Syncing a profile into a group keeps its user ids. */
  lemma SyncUserKeepsIds(g: Group, p: UserProfile)
    ensures DistinctIds(g.users) ==> DistinctIds(SyncUser(g, p).users)
    ensures HasUser(SyncUser(g, p).users, p.id) <==> HasUser(g.users, p.id)
    ensures SyncUser(g, p).id == g.id
  {
    var u := g.users;
    var u' := SyncUser(g, p).users;
    if HasUser(u, p.id) {
      var i :| 0 <= i < |u| && u[i].id == p.id;
      assert u'[i].id == p.id;
    }
    if HasUser(u', p.id) {
      var i :| 0 <= i < |u'| && u'[i].id == p.id;
      assert u[i].id == p.id;
    }
  }

  /** A profile edit keeps its id, so the invariant holds afterwards. */
  lemma SaveProfileKeepsHealthy(s: Store, p: UserProfile)
    requires Healthy(s)
    requires s.profile.Some? && s.profile.value.id == p.id
    ensures Healthy(SaveUserProfile(s, p))
  {
    var s' := SaveUserProfile(s, p);
    forall k | k in s.groups
      ensures SameGroupShape(s.groups[k], s'.groups[k], p.id)
    {
      SaveProfileKeepsGroupShape(s, p, k);
    }
    assert WithinCaps(s');
    assert UniqueMembers(s');
    assert IndexCovers(s');
    assert UniqueGroupIds(s');
  }

  /** Two versions of a group with the same id, counters and number of users,
      distinct ids in the second when in the first, and the same membership
      of one user id. */
  predicate SameGroupShape(g: Group, g': Group, id: string)
  {
    && g'.id == g.id && g'.counters == g.counters && |g'.users| == |g.users|
    && (DistinctIds(g.users) ==> DistinctIds(g'.users))
    && (HasUser(g'.users, id) <==> HasUser(g.users, id))
  }

  /** A save keeps the shape of every group. */
  lemma SaveProfileKeepsGroupShape(s: Store, p: UserProfile, k: string)
    requires k in s.groups
    ensures SameGroupShape(s.groups[k], SaveUserProfile(s, p).groups[k], p.id)
  {
    SyncUserKeepsIds(s.groups[k], p);
  }

  /** A new profile with an id no group has seen keeps the invariant. */
  lemma CreateProfileKeepsHealthy(s: Store, name: string, avatar: string, id: string, colorIndex: nat)
    requires colorIndex < |Palette|
    requires Healthy(s)
    requires forall k :: k in s.groups ==> !HasUser(s.groups[k].users, id)
    ensures Healthy(CreateProfile(s, name, avatar, id, colorIndex).0)
  {
    var (s', p) := CreateProfile(s, name, avatar, id, colorIndex);
    forall k | k in s.groups
      ensures s'.groups[k] == s.groups[k]
    {
    }
  }

  // ---- single-operation relations ------------------------------------------

  /** A user is in a non-empty sequence when it heads it or is in the tail. */
  lemma HasUserCons(users: seq<User>, id: string)
    requires users != []
    ensures HasUser(users, id) <==> users[0].id == id || HasUser(users[1..], id)
  {
    if HasUser(users, id) {
      var i :| 0 <= i < |users| && users[i].id == id;
      if i > 0 {
        assert users[1..][i - 1].id == id;
      }
    }
    if HasUser(users[1..], id) {
      var i :| 0 <= i < |users| - 1 && users[1..][i].id == id;
      assert users[i + 1].id == id;
    }
  }

  lemma {:induction false} RemoveUsersKeepsDistinct(users: seq<User>, id: string)
    requires DistinctIds(users)
    ensures DistinctIds(RemoveUsers(users, id))
    ensures |RemoveUsers(users, id)| == if HasUser(users, id) then |users| - 1 else |users|
  {
    if users != [] {
      assert DistinctIds(users[1..]);
      RemoveUsersKeepsDistinct(users[1..], id);
      HasUserCons(users, id);
      var rest := RemoveUsers(users[1..], id);
      if users[0].id == id {
        assert !HasUser(users[1..], id) by {
          forall i | 0 <= i < |users| - 1 ensures users[1..][i].id != id {
            assert users[1..][i] == users[i + 1];
          }
        }
      } else {
        var r := [users[0]] + rest;
        assert RemoveUsers(users, id) == r;
        forall i, j | 0 <= i < j < |r|
          ensures r[i].id != r[j].id
        {
          if i == 0 {
            assert r[j] in users[1..];
            var m :| 0 <= m < |users| - 1 && users[1..][m] == r[j];
            assert users[m + 1] == r[j];
          }
        }
      }
    }
  }

  /** Leaving removes at most one membership record from a group whose ids are distinct. */
  lemma LeaveRemovesAtMostOneRecord(s: Store, groupId: string, k: string)
    requires k in s.groups && UniqueMembers(s)
    ensures |LeaveGroup(s, groupId).groups[k].users| >= |s.groups[k].users| - 1
  {
    if s.profile.Some? && FindKeyById(s.groups, s.keyOrder, groupId) == Some(k) {
      RemoveUsersKeepsDistinct(s.groups[k].users, s.profile.value.id);
    }
  }

  /** A group stored under the empty code keeps the leaving profile's record
      (the empty key is falsy), while the index still drops its id. */
  lemma LeaveSkipsEmptyCode()
    ensures
      var p := UserProfile("u1", "Ann", "A", "#3b82f6");
      var g := Group("g1", "", "Trip", [Snapshot(p, 0)], [], [], 0);
      var s := Store(map["" := g], [""], Some(p), ["g1"]);
      && IndexCovers(s)
      && LeaveGroup(s, "g1").groups == s.groups
      && LeaveGroup(s, "g1").myGroupIds == []
      && !IndexCovers(LeaveGroup(s, "g1"))
  {
    var p := UserProfile("u1", "Ann", "A", "#3b82f6");
    var g := Group("g1", "", "Trip", [Snapshot(p, 0)], [], [], 0);
    var s := Store(map["" := g], [""], Some(p), ["g1"]);
    assert FindKeyById(s.groups, s.keyOrder, "g1") == Some("");
    assert HasUser(g.users, "u1") by { assert g.users[0].id == "u1"; }
  }

  /** Leaving twice is leaving once. */
  lemma LeaveIdempotent(s: Store, groupId: string)
    ensures LeaveGroup(LeaveGroup(s, groupId), groupId) == LeaveGroup(s, groupId)
  {
    var s1 := LeaveGroup(s, groupId);
    var s2 := LeaveGroup(s1, groupId);
    assert SameIds(s.groups, s1.groups);
    FindKeyByIdSameIds(s.groups, s1.groups, s.keyOrder, groupId);
    assert s2.groups == s1.groups;
  }

  /** A successful join is followed by a refused one: the id is now in the index. */
  lemma JoinTwiceRefused(s: Store, code: string, t1: int, t2: int)
    requires JoinGroup(s, code, t1).Ok?
    ensures var s' := JoinGroup(s, code, t1).value.0;
      JoinGroup(s', code, t2) == if |s'.myGroupIds| >= MaxGroupsPerUser then Err(TooManyGroups) else Err(AlreadyMember)
  {
  }

  /** A created group is found by its id when no other group has that id. */
  lemma CreateThenGetById(s: Store, groupName: string, groupId: string, code: string, joinedAt: int, createdAt: int)
    requires IsGeneratedCode(code)
    requires KeysAgree(s) && FreshGroupId(s, code, groupId)
    requires CreateGroup(s, groupName, groupId, code, joinedAt, createdAt).Ok?
    ensures var (s', g) := CreateGroup(s, groupName, groupId, code, joinedAt, createdAt).value;
      GetGroupById(s', groupId) == Some(g)
  {
    var (s', g) := CreateGroup(s, groupName, groupId, code, joinedAt, createdAt).value;
    var r := GetGroupById(s', groupId);
    assert s'.groups[code].id == groupId;
    assert r.Some?;
    var k :| k in s'.groups && s'.groups[k] == r.value;
    assert k == code;
  }

  /** A generated code is its own upper-case form, so the group it names can
      be joined whatever case the code is typed in. */
  lemma GeneratedCodeJoinable(s: Store, code: string, typed: string, joinedAt: int)
    requires IsGeneratedCode(code) && Text.Upper(typed) == Text.Upper(code) && code in s.groups
    requires s.profile.Some? && |s.myGroupIds| < MaxGroupsPerUser
    ensures JoinGroup(s, typed, joinedAt) != Err(NotFound)
  {
    Text.UpperOfUpperCase(code);
  }

  /** Join looks codes up case-insensitively. */
  lemma JoinIgnoresCase(s: Store, c1: string, c2: string, joinedAt: int)
    requires Text.Upper(c1) == Text.Upper(c2)
    ensures JoinGroup(s, c1, joinedAt) == JoinGroup(s, c2, joinedAt)
  {
  }

  /** Log appends match the code exactly: a lower-cased code reaches no group. */
  lemma AddLogIsCaseSensitive()
    ensures
      var g := Group("g1", "ABC", "Trip", [], [], [], 0);
      var s := Store(map["ABC" := g], ["ABC"], None, []);
      var log := LogEntry("l1", "c1", "u1", 0);
      && AddLog(s, "abc", log) == s
      && AddLog(s, "ABC", log) != s
  {
    var g := Group("g1", "ABC", "Trip", [], [], [], 0);
    var s := Store(map["ABC" := g], ["ABC"], None, []);
    var log := LogEntry("l1", "c1", "u1", 0);
    assert "abc" != "ABC" by { assert "abc"[0] != "ABC"[0]; }
    assert AddLog(s, "ABC", log).groups["ABC"].logs == [log];
  }

  /** Saving the same profile twice is saving it once. */
  lemma SaveProfileIdempotent(s: Store, p: UserProfile)
    ensures SaveUserProfile(SaveUserProfile(s, p), p) == SaveUserProfile(s, p)
  {
    var s1 := SaveUserProfile(s, p);
    var s2 := SaveUserProfile(s1, p);
    SaveProfileGroupsIdempotent(s, p);
    assert s2.groups == s1.groups;
  }

  /** The group map after two saves is the group map after one. */
  lemma SaveProfileGroupsIdempotent(s: Store, p: UserProfile)
    ensures SaveUserProfile(SaveUserProfile(s, p), p).groups == SaveUserProfile(s, p).groups
  {
    var g1 := SaveUserProfile(s, p).groups;
    var g2 := SaveUserProfile(SaveUserProfile(s, p), p).groups;
    forall k | k in s.groups
      ensures g2[k] == g1[k]
    {
      SaveProfileIdempotentAt(s, p, k);
    }
    MapsEqual(g2, g1);
  }

  /** Two maps with the same keys that agree on every key are equal. */
  lemma MapsEqual(a: map<string, Group>, b: map<string, Group>)
    requires a.Keys == b.Keys && forall k :: k in a ==> a[k] == b[k]
    ensures a == b
  {
  }

  /** The second save changes no group: it resolves the same groups, and
      syncing is idempotent. */
  lemma SaveProfileIdempotentAt(s: Store, p: UserProfile, k: string)
    requires k in s.groups
    ensures SaveUserProfile(SaveUserProfile(s, p), p).groups[k] == SaveUserProfile(s, p).groups[k]
  {
    var s1 := SaveUserProfile(s, p);
    assert SameIds(s.groups, s1.groups);
    ResolvedBySameIds(s.groups, s1.groups, s.keyOrder, s.myGroupIds, k);
    if k != "" {
      SyncUserIdempotent(s.groups[k], p);
    }
  }

  /** Which keys an index resolves depends only on the keys and the groups' ids. */
  lemma ResolvedBySameIds(a: map<string, Group>, b: map<string, Group>, order: seq<string>, ids: seq<string>, k: string)
    requires SameIds(a, b)
    ensures ResolvedBy(a, order, ids, k) <==> ResolvedBy(b, order, ids, k)
  {
    forall i | 0 <= i < |ids|
      ensures FindKeyById(a, order, ids[i]) == FindKeyById(b, order, ids[i])
    {
      FindKeyByIdSameIds(a, b, order, ids[i]);
    }
  }

  /** After a profile edit, every record of that id in a group the index
      resolves to shows the new name, avatar and colour (when ids are
      distinct, the first record is the only one), and every join time stays. */
  lemma RenamePropagates(s: Store, p: UserProfile, k: string)
    requires k in s.groups && k != "" && DistinctIds(s.groups[k].users)
    requires ResolvedBy(s.groups, s.keyOrder, s.myGroupIds, k)
    ensures var users' := SaveUserProfile(s, p).groups[k].users;
      forall i :: 0 <= i < |users'| && users'[i].id == p.id ==>
        users'[i].name == p.name && users'[i].avatar == p.avatar && users'[i].color == p.color
  {
    var users := s.groups[k].users;
    var users' := SaveUserProfile(s, p).groups[k].users;
    forall i | 0 <= i < |users'| && users'[i].id == p.id
      ensures users'[i].name == p.name && users'[i].avatar == p.avatar && users'[i].color == p.color
    {
      assert users[i].id == p.id;
      assert HasUser(users, p.id);
      var j :| 0 <= j < |users| && users[j].id == p.id
        && (forall m :: 0 <= m < j ==> users[m].id != p.id)
        && users' == users[j := Retouch(users[j], p)];
      assert i == j;
    }
  }

  /** Groups no index entry resolves to are left as they were. */
  lemma SaveProfileSkipsUnresolved(s: Store, p: UserProfile, k: string)
    requires k in s.groups && !ResolvedBy(s.groups, s.keyOrder, s.myGroupIds, k)
    ensures SaveUserProfile(s, p).groups[k] == s.groups[k]
  {
  }
}

=== FILE: tally.dfy ===
/** The per-counter tally text that Services/giminiService.ts hands to the
    commentary generator: one line per counter, each listing every user's
    count for that counter as `name: count`. */
module Tally {
  import opened Types
  import Text
  import Leaderboard

  /** `logs.filter(l => l.counterId === counterId)`. */
  function LogsOfCounter(logs: seq<LogEntry>, counterId: string): (r: seq<LogEntry>)
    ensures |r| <= |logs|
    ensures forall i :: 0 <= i < |r| ==> r[i].counterId == counterId && r[i] in logs
  {
    if logs == [] then []
    else (if logs[0].counterId == counterId then [logs[0]] else []) + LogsOfCounter(logs[1..], counterId)
  }

  /** `counterLogs.filter(l => l.userId === userId).length`. */
  function CountByUser(counterLogs: seq<LogEntry>, userId: string): (n: nat)
    ensures n <= |counterLogs|
  {
    if counterLogs == [] then 0
    else (if counterLogs[0].userId == userId then 1 else 0) + CountByUser(counterLogs[1..], userId)
  }

  /** Filtering by counter and then counting by user counts exactly what the
      leaderboard counts for that user. */
  lemma {:induction false} TwoStageCount(logs: seq<LogEntry>, counterId: string, userId: string)
    ensures CountByUser(LogsOfCounter(logs, counterId), userId) == Leaderboard.LogCount(logs, counterId, userId)
  {
    if logs != [] {
      TwoStageCount(logs[1..], counterId, userId);
      if logs[0].counterId == counterId {
        var r := LogsOfCounter(logs, counterId);
        assert r == [logs[0]] + LogsOfCounter(logs[1..], counterId);
        assert r[1..] == LogsOfCounter(logs[1..], counterId);
      } else {
        assert LogsOfCounter(logs, counterId) == LogsOfCounter(logs[1..], counterId);
      }
    }
  }

  /** `${user.name}: ${count}`. */
  function Pair(u: User, counterLogs: seq<LogEntry>): (r: string)
    ensures |r| > |u.name| + 2 && r[..|u.name| + 2] == u.name + ": "
    ensures Text.AllDigits(r[|u.name| + 2..])
    ensures Text.ParseNat(r[|u.name| + 2..]) == CountByUser(counterLogs, u.id)
  {
    var n := CountByUser(counterLogs, u.id);
    Text.ParseNatToString(n);
    var r := u.name + ": " + Text.NatToString(n);
    assert r[|u.name| + 2..] == Text.NatToString(n);
    r
  }

  /** The pairs of one counter, in user order. */
  function Pairs(users: seq<User>, counterLogs: seq<LogEntry>): (r: seq<string>)
    ensures |r| == |users|
    ensures forall i :: 0 <= i < |users| ==> r[i] == Pair(users[i], counterLogs)
  {
    seq(|users|, i requires 0 <= i < |users| => Pair(users[i], counterLogs))
  }

  /** `Counter "<title>" (<emoji>): [<pairs joined by ", ">]`. */
  function Line(c: Counter, users: seq<User>, logs: seq<LogEntry>): (r: string)
    ensures '\n' in r ==>
      '\n' in c.title || '\n' in c.emoji || exists i :: 0 <= i < |users| && '\n' in users[i].name
  {
    PairsBreaks(users, LogsOfCounter(logs, c.id));
    "Counter \"" + c.title + "\" (" + c.emoji + "): [" + Text.Join(Pairs(users, LogsOfCounter(logs, c.id)), ", ") + "]"
  }

  /** A line break in a pair comes from the user's name: the count is digits. */
  lemma PairsBreaks(users: seq<User>, counterLogs: seq<LogEntry>)
    ensures forall i :: 0 <= i < |users| && '\n' in Pair(users[i], counterLogs) ==> '\n' in users[i].name
  {
    forall i | 0 <= i < |users| && '\n' in Pair(users[i], counterLogs)
      ensures '\n' in users[i].name
    {
      var d := Text.NatToString(CountByUser(counterLogs, users[i].id));
      assert Pair(users[i], counterLogs) == users[i].name + ": " + d;
      assert '\n' !in d;
    }
  }

  /** The lines of the tally, one per counter in counter order. */
  function Lines(users: seq<User>, counters: seq<Counter>, logs: seq<LogEntry>): (r: seq<string>)
    ensures |r| == |counters|
    ensures forall i :: 0 <= i < |counters| ==> r[i] == Line(counters[i], users, logs)
  {
    seq(|counters|, i requires 0 <= i < |counters| => Line(counters[i], users, logs))
  }

  /** The tally text: the lines joined by newlines. */
  function Summary(users: seq<User>, counters: seq<Counter>, logs: seq<LogEntry>): (r: string)
    ensures counters == [] ==> r == ""
    ensures |counters| == 1 ==> r == Line(counters[0], users, logs)
  {
    Text.Join(Lines(users, counters, logs), "\n")
  }

  /** The pair for a user is the name, ": ", and the digits of exactly that
      user's count for the counter. */
  lemma PairStatesCount(u: User, logs: seq<LogEntry>, counterId: string)
    ensures exists digits: string ::
      && Pair(u, LogsOfCounter(logs, counterId)) == u.name + ": " + digits
      && Text.AllDigits(digits)
      && Text.ParseNat(digits) == Leaderboard.LogCount(logs, counterId, u.id)
  {
    var n := CountByUser(LogsOfCounter(logs, counterId), u.id);
    TwoStageCount(logs, counterId, u.id);
    Text.ParseNatToString(n);
    var digits := Text.NatToString(n);
    assert Pair(u, LogsOfCounter(logs, counterId)) == u.name + ": " + digits;
  }

  /** A line lists every user, in user order, as the name, ": " and the digits
      of exactly the number of that user's logs for the counter, the pairs
      joined by ", " inside the brackets after the title and emoji. */
  lemma LineStatesCounts(c: Counter, users: seq<User>, logs: seq<LogEntry>)
    ensures exists pairs: seq<string> ::
      && |pairs| == |users|
      && Line(c, users, logs) == "Counter \"" + c.title + "\" (" + c.emoji + "): [" + Text.Join(pairs, ", ") + "]"
      && forall i :: 0 <= i < |users| ==> exists d: string ::
           && pairs[i] == users[i].name + ": " + d
           && Text.AllDigits(d)
           && Text.ParseNat(d) == Leaderboard.LogCount(logs, c.id, users[i].id)
  {
    var pairs := Pairs(users, LogsOfCounter(logs, c.id));
    forall i | 0 <= i < |users|
      ensures exists d: string ::
        && pairs[i] == users[i].name + ": " + d
        && Text.AllDigits(d)
        && Text.ParseNat(d) == Leaderboard.LogCount(logs, c.id, users[i].id)
    {
      PairStatesCount(users[i], logs, c.id);
    }
  }

  /** With no users a line lists nothing between its brackets. */
  lemma NoUsersLine(c: Counter, logs: seq<LogEntry>)
    ensures Line(c, [], logs) == "Counter \"" + c.title + "\" (" + c.emoji + "): []"
  {
  }

  /** No title, emoji or name has a line break. */
  predicate NoLineBreaks(users: seq<User>, counters: seq<Counter>)
  {
    && (forall i :: 0 <= i < |users| ==> '\n' !in users[i].name)
    && (forall i :: 0 <= i < |counters| ==> '\n' !in counters[i].title && '\n' !in counters[i].emoji)
  }

  lemma LineHasNoBreak(c: Counter, users: seq<User>, logs: seq<LogEntry>)
    requires '\n' !in c.title && '\n' !in c.emoji
    requires forall i :: 0 <= i < |users| ==> '\n' !in users[i].name
    ensures '\n' !in Line(c, users, logs)
  {
    var pairs := Pairs(users, LogsOfCounter(logs, c.id));
    forall i | 0 <= i < |pairs|
      ensures '\n' !in pairs[i]
    {
      var d := Text.NatToString(CountByUser(LogsOfCounter(logs, c.id), users[i].id));
      assert '\n' !in d;
      assert pairs[i] == users[i].name + ": " + d;
    }
    Text.JoinFree(pairs, ", ", '\n');
  }

  /** When no title, emoji or name carries a line break, splitting the tally
      on newlines gives back one line per counter, in counter order. */
  lemma SummarySplitsIntoLines(users: seq<User>, counters: seq<Counter>, logs: seq<LogEntry>)
    requires |counters| >= 1 && NoLineBreaks(users, counters)
    ensures Text.Split(Summary(users, counters, logs), '\n') == Lines(users, counters, logs)
    ensures |Text.Split(Summary(users, counters, logs), '\n')| == |counters|
  {
    var lines := Lines(users, counters, logs);
    forall i | 0 <= i < |lines|
      ensures '\n' !in lines[i]
    {
      LineHasNoBreak(counters[i], users, logs);
    }
    Text.SplitJoin(lines, '\n');
  }
}

=== FILE: text.dfy ===
/** The few JavaScript string operations the tally and the join rely on: ASCII
    `toUpperCase`, the decimal rendering of a count in a template literal,
    `Array.prototype.join` and the single-character `String.prototype.split`
    that reads joined text back. */
module Text {

  /** Upper-cases one ASCII letter and leaves every other character alone. */
  function UpperChar(c: char): char
  {
    if 'a' <= c <= 'z' then (c as int - 32) as char else c
  }

  predicate IsLowerAscii(c: char)
  {
    'a' <= c <= 'z'
  }

  /** `String.prototype.toUpperCase` restricted to ASCII letters. */
  function Upper(s: string): (r: string)
    ensures |r| == |s|
    ensures forall i :: 0 <= i < |r| ==> !IsLowerAscii(r[i])
    ensures forall i :: 0 <= i < |s| && !IsLowerAscii(s[i]) ==> r[i] == s[i]
    ensures forall i :: 0 <= i < |s| && IsLowerAscii(s[i]) ==> r[i] as int == s[i] as int - 32
  {
    seq(|s|, i requires 0 <= i < |s| => UpperChar(s[i]))
  }

  /** Upper-casing twice is upper-casing once. */
  lemma UpperIdempotent(s: string)
    ensures Upper(Upper(s)) == Upper(s)
  {
  }

  /** A string with no lower-case ASCII letter is its own upper-case form. */
  lemma UpperOfUpperCase(s: string)
    requires forall i :: 0 <= i < |s| ==> !IsLowerAscii(s[i])
    ensures Upper(s) == s
  {
  }

  predicate IsDigit(c: char)
  {
    '0' <= c <= '9'
  }

  predicate AllDigits(s: string)
  {
    forall i :: 0 <= i < |s| ==> IsDigit(s[i])
  }

  function DigitChar(d: nat): (c: char)
    requires d < 10
    ensures IsDigit(c)
    ensures c as int - '0' as int == d
  {
    (d + '0' as int) as char
  }

  /** The value of one decimal digit. */
  function DigitValue(c: char): (d: nat)
    requires IsDigit(c)
    ensures d < 10
    ensures DigitChar(d) == c
  {
    c as int - '0' as int
  }

  /** The decimal rendering of a count, as `${n}` produces it: at least one
      digit and no leading zero. */
  function NatToString(n: nat): (s: string)
    ensures |s| >= 1
    ensures AllDigits(s)
    ensures |s| > 1 ==> s[0] != '0'
    decreases n
  {
    if n < 10 then [DigitChar(n)] else NatToString(n / 10) + [DigitChar(n % 10)]
  }

  /** Reads a string of decimal digits back as a number. */
  function ParseNat(s: string): nat
    requires AllDigits(s)
  {
    if s == [] then 0 else ParseNat(s[..|s| - 1]) * 10 + DigitValue(s[|s| - 1])
  }

  /** Rendering a count and reading it back gives the count: no two counts
      render to the same text. */
  lemma {:induction false} ParseNatToString(n: nat)
    ensures ParseNat(NatToString(n)) == n
    decreases n
  {
    if n >= 10 {
      var s := NatToString(n);
      assert s[..|s| - 1] == NatToString(n / 10);
      ParseNatToString(n / 10);
    }
  }

  /** `parts.join(sep)`: the parts in order, with `sep` between neighbours. */
  function Join(parts: seq<string>, sep: string): (r: string)
    ensures forall ch :: ch in r ==> ch in sep || exists i :: 0 <= i < |parts| && ch in parts[i]
  {
    if parts == [] then ""
    else if |parts| == 1 then parts[0]
    else parts[0] + sep + Join(parts[1..], sep)
  }

  /** `s.split(c)` for a one-character separator: the maximal c-free pieces,
      always at least one (the empty string splits into one empty piece). */
  function Split(s: string, c: char): (r: seq<string>)
    ensures |r| >= 1
    ensures forall i :: 0 <= i < |r| ==> c !in r[i]
  {
    if s == [] then [""]
    else
      var rest := Split(s[1..], c);
      if s[0] == c then [""] + rest else [[s[0]] + rest[0]] + rest[1..]
  }

  /** A string without the separator is one piece. */
  lemma {:induction false} SplitNoSeparator(p: string, c: char)
    requires c !in p
    ensures Split(p, c) == [p]
  {
    if p != [] {
      SplitNoSeparator(p[1..], c);
      assert [p[0]] + p[1..] == p;
    }
  }

  /** A separator-free piece followed by the separator splits off as one piece. */
  lemma {:induction false} SplitPiece(p: string, c: char, rest: string)
    requires c !in p
    ensures Split(p + [c] + rest, c) == [p] + Split(rest, c)
  {
    if p == [] {
      assert p + [c] + rest == [c] + rest;
      assert ([c] + rest)[1..] == rest;
    } else {
      var s := p + [c] + rest;
      assert s[0] == p[0];
      assert s[1..] == p[1..] + [c] + rest;
      SplitPiece(p[1..], c, rest);
      assert [p[0]] + p[1..] == p;
    }
  }

  /** Splitting a join on a separator that no part contains gives back the
      parts (for a non-empty list: the empty list joins to "" which splits
      into one empty piece). */
  lemma {:induction false} SplitJoin(parts: seq<string>, c: char)
    requires |parts| >= 1
    requires forall i :: 0 <= i < |parts| ==> c !in parts[i]
    ensures Split(Join(parts, [c]), c) == parts
  {
    if |parts| == 1 {
      SplitNoSeparator(parts[0], c);
    } else {
      SplitJoin(parts[1..], c);
      SplitPiece(parts[0], c, Join(parts[1..], [c]));
      assert [parts[0]] + parts[1..] == parts;
    }
  }

  /** A join contains the separator character only where a part or the
      separator brings it. */
  lemma {:induction false} JoinFree(parts: seq<string>, sep: string, c: char)
    requires c !in sep
    requires forall i :: 0 <= i < |parts| ==> c !in parts[i]
    ensures c !in Join(parts, sep)
  {
    if |parts| > 1 {
      JoinFree(parts[1..], sep, c);
    }
  }
}

=== FILE: types.dfy ===
/** The entities of types.ts, as immutable values. Identifiers, names and
    codes are strings; timestamps (milliseconds since the epoch) are ints. */
module Types {
  import opened Wrappers

  /** The local user's identity (types.ts:9-14). */
  datatype UserProfile = UserProfile(id: string, name: string, avatar: string, color: string)

  /** A membership record: a snapshot of a profile taken when it joined a group (types.ts:1-7). */
  datatype User = User(id: string, name: string, avatar: string, color: string, joinedAt: int)

  /** A named tally category of a group (types.ts:16-24). */
  datatype Counter = Counter(
    id: string,
    emoji: string,
    title: string,
    description: Option<string>,
    color: string,
    createdAt: int,
    createdBy: string)

  /** One unit increment of one counter by one user (types.ts:26-31). */
  datatype LogEntry = LogEntry(id: string, counterId: string, userId: string, timestamp: int)

  /** A group, stored under its `code` and referred to elsewhere by its `id` (types.ts:33-41). */
  datatype Group = Group(
    id: string,
    code: string,
    name: string,
    users: seq<User>,
    counters: seq<Counter>,
    logs: seq<LogEntry>,
    createdAt: int)

  /** The membership record a profile gets when it creates or joins a group:
      the profile's four fields plus the join time. */
  function Snapshot(p: UserProfile, joinedAt: int): (u: User)
    ensures u.id == p.id && u.name == p.name && u.avatar == p.avatar && u.color == p.color
    ensures u.joinedAt == joinedAt
  {
    User(p.id, p.name, p.avatar, p.color, joinedAt)
  }

  /** True when no two users of the sequence share an id. */
  predicate DistinctIds(users: seq<User>)
  {
    forall i, j :: 0 <= i < j < |users| ==> users[i].id != users[j].id
  }

  /** True when some user of the sequence has the given id. */
  predicate HasUser(users: seq<User>, id: string)
  {
    exists i :: 0 <= i < |users| && users[i].id == id
  }
}

=== FILE: wrappers.dfy ===
/** Option and Result, shared by the whole model. */
module Wrappers {

  /** A value that may be absent: the model of a TypeScript `T | null`. */
  datatype Option<+T> = None | Some(value: T)

  /** Either a value or one of the repository's error kinds. */
  datatype Result<+T, +E> = Ok(value: T) | Err(error: E)
}
